=== FILE: README.md ===
# MultiPL-E Haskell translator, stop-token cut and result classifier, in Dafny

This project models three pieces of the MultiPL-E benchmark pipeline and proves
properties of them.

1. The Python-to-Haskell translator (`dataset_builder/humaneval_to_hs.py`). It
   turns the type annotations of a HumanEval problem into Haskell type text.
   It renders Python values as Haskell literals. It emits the prompt (the
   description as comments, the type signature, `name =`) and the test program
   (opening lines, one `&& lhs == rhs` line per test, closing line).
   Arguments declared `Optional[...]` are coerced to `Nothing` / `Just (...)`.
2. The stop-token cut (`src/local_huggingface_model.py`). A model's decoded
   completion is cut at the earliest first occurrence of any stop token.
3. The classification of one run of a generated Haskell program
   (`evaluation/src/eval_hs.py`). It yields `Timeout`, `Exception` or `OK`, and
   the run data is copied into the result record.

Modules, one per component:

- `Results` (`results.dfy`): `Option` and `Result`. A translation failure
  (a raised exception in the source) is a `Fail` value.
- `Strings` (`strings.dfy`): the Python string operations the code uses.
  These are `str.find`, `sep.join`, `str.split` and `str.replace` on one
  character, `startswith` and `endswith`. Each comes with the facts the rest
  of the model needs, such as split/join inverses.
- `Annotations` (`annotations.dfy`): the few `ast` node shapes the translator
  matches on (`Name`, `Subscript`, `TupleNode`, `Constant`, `Absent`, `Other`).
  It also gives the grammar of supported annotations.
- `TypeTranslation` (`type_translation.dfy`): `check_no_Optional` and
  `translate_type`. The module-global `needs_hashmap` is returned as a flag
  alongside the text.
- `TypeParser` (`type_parser.dfy`): an independent reader for Haskell type
  text. Reading back any successful translation gives the annotation, so the
  translation is injective.
- `Coercion` (`coercion.dfy`): `coerce` and its inverse.
- `Literals` (`literals.dfy`): `fix_float`, `gen_literal` with its string
  escaping, the keyword list and `gen_var`.
- `Containers` (`containers.dfy`): `gen_list`, `gen_tuple` and `gen_dict`,
  with a reader for lists and tuples.
- `TestHarness` (`harness.dfy`): the test-suite prefix and suffix lines,
  `deep_equality`, and a reader for equality lines.
- `Emitter` (`emitter.dfy`): the `Translator` state (the remembered
  signature), `translate_prompt`, `gen_call` and `finalize`.
- `StopTokens` (`stop_tokens.dfy`): `_stop_at_stop_token`.
- `EvalHs` (`eval_hs.dfy`): the status decision and the result record of
  `eval_script`.

The translator's `self.type` is an explicit value,
`Translator(ctx: Option<Context>)`. `TranslatePrompt` returns the new
translator together with the prompt. The source stores the signature before it
translates it, so the translator is updated even when the prompt fails.
`GenCall` needs the stored signature only for calls to `candidate`. `Finalize`
needs it only for `"rhs"`. Without a stored signature, or with more arguments
than parameters, these two cases would stop with an attribute or index error
(`dataset_builder/humaneval_to_hs.py:121` and `:136`), so they are
preconditions.

The match on `"error"` in the classifier (`evaluation/src/eval_hs.py:11`) is
Python's case-sensitive `in`. So `EvalHs.Classify` is case-sensitive, and
`EvalHs.ErrorMatchIsCaseSensitive` shows `ERROR` passing while `no errors`
fails.

Quirks of the code that the model reproduces:

- `case ast.Constant(Ellipsis)` binds a capture name, so every constant
  annotation is rejected with the ellipsis error, not only `...`.
- `type(c) == None` never holds, so `gen_literal(None)` renders `None`.
  `coerce` later turns it into `Nothing`.
- Backslashes are not escaped in string literals. Two different strings can
  therefore render alike (`Literals.EscapeCollision`). The round trip holds
  only for backslash-free text.
- A prompt for a function with no arguments has the signature `name ::  -> R`.
- A call with no arguments renders as `f ()`.
- `gen_var` can map two identifiers to one name (`if` and `if'`). Python
  identifiers cannot contain `'`, so this never happens for real input.

## Model

| member | source | states |
|---|---|---|
| TypeTranslation.CheckNoOptional | dataset_builder/humaneval_to_hs.py:7-11 | fails, with the tuple-Optional error, exactly when some top-level element is an `Optional[...]` subscript |
| TypeTranslation.TranslateType | dataset_builder/humaneval_to_hs.py:14-60 | a successful translation is a single line of type text |
| TypeTranslation.TranslateAll | dataset_builder/humaneval_to_hs.py:27 | translating a list succeeds iff every element does, element by element; otherwise it reports the error of the first failing element |
| TypeTranslation.PrimitiveShapes | dataset_builder/humaneval_to_hs.py:43-50 | `int`, `float`, `bool`, `str` become `Int`, `Double`, `Bool`, `String`, without the hashmap flag |
| TypeTranslation.ListAndOptionalShapes | dataset_builder/humaneval_to_hs.py:19-40 | `List[T]` is `[T']` and `Optional[T]` is `Maybe (T')`; each succeeds iff `T` does, keeps its flag, and passes on its error |
| TypeTranslation.TupleShape | dataset_builder/humaneval_to_hs.py:23-30 | a tuple slice gives `(` + the element texts joined by ` , ` + `)`; a non-tuple slice and a top-level Optional element are errors |
| TypeTranslation.DictShape | dataset_builder/humaneval_to_hs.py:31-38 | `Dict[K, V]` with two bare names gives `[(K', V')]` and sets the flag; any other slice is an error |
| TypeTranslation.UnsupportedShapes | dataset_builder/humaneval_to_hs.py:16-60 | Union, unknown generics, absent annotations, `Any`, unknown names, constants and other nodes each fail with their own error |
| TypeTranslation.TranslateSucceedsIffSupported | dataset_builder/humaneval_to_hs.py:14-60 | translation succeeds exactly on the supported annotation grammar |
| TypeTranslation.HashmapFlagIffDict | dataset_builder/humaneval_to_hs.py:15-38 | after a successful translation the hashmap flag is set iff some `Dict[...]` occurs in the annotation |
| TypeParser.ParseTranslated | dataset_builder/humaneval_to_hs.py:14-60 | reading a translated type followed by any text gives back the annotation and exactly the text that followed |
| TypeParser.TranslationInjective | dataset_builder/humaneval_to_hs.py:14-60 | two annotations that translate to the same text are equal |
| Coercion.Coerce | dataset_builder/humaneval_to_hs.py:62-72 | only a top-level `Optional[...]` type changes the text; `None` becomes `Nothing` and nothing else does; any other value is wrapped as `Just (...)` |
| Coercion.UncoerceCoerce | dataset_builder/humaneval_to_hs.py:62-72 | the original text can always be read back from the coerced text |
| Coercion.CoerceUncoerce | dataset_builder/humaneval_to_hs.py:62-72 | a text that reads back as `e` is exactly the coercion of `e`; in particular `Just (None)` is never a coerced value |
| Coercion.CoerceInjective | dataset_builder/humaneval_to_hs.py:62-72 | distinct texts stay distinct after coercion |
| Coercion.CoercionFollowsMaybe | dataset_builder/humaneval_to_hs.py:62-72 | a value is wrapped exactly when its declared type translates to a Haskell `Maybe` |
| Literals.FixFloat | dataset_builder/humaneval_to_hs.py:76-81 | at most one `0` is added, in front or at the end; text that neither starts nor ends with `.` is unchanged; the result never starts with `.`, and ends with `.` only if the input both starts and ends with `.` |
| Literals.FixFloatExamples | dataset_builder/humaneval_to_hs.py:75-81 | `.5` becomes `0.5`, `5.` becomes `5.0`, `5.5` is unchanged, `.` becomes `0.` |
| Literals.FixFloatIdempotent | dataset_builder/humaneval_to_hs.py:76-81 | fixing twice equals fixing once iff the text does not both start and end with a point |
| Literals.EscapeIsPerCharacter | dataset_builder/humaneval_to_hs.py:101 | the two chained replacements equal escaping each character on its own, so nothing is escaped twice |
| Literals.UnescapeEscape | dataset_builder/humaneval_to_hs.py:101 | for backslash-free text, decoding the escaped text gives the original |
| Literals.EscapeCollision | dataset_builder/humaneval_to_hs.py:101 | a backslash followed by `n` and a newline escape to the same text |
| Literals.GenLiteral | dataset_builder/humaneval_to_hs.py:97-106 | floats go through `fix_float`, ints keep their text, booleans become `True`/`False`, `None` stays `None` (the `type(c) == None` branch is dead), and a string is quoted with only newlines and double quotes escaped, per character, so backslashes pass through unchanged |
| Literals.BackslashKept | dataset_builder/humaneval_to_hs.py:100-101 | a backslash in a string reaches the rendered literal unescaped |
| Coercion.NoneBecomesNothing | dataset_builder/humaneval_to_hs.py:62-72 | the rendered `None` literal becomes `Nothing` exactly where the declared type is `Optional[...]`, and stays `None` elsewhere |
| Literals.StringLiteralReadsBack | dataset_builder/humaneval_to_hs.py:100-101 | a string literal is quoted, and its body decodes to the original backslash-free text |
| Literals.GenVar | dataset_builder/humaneval_to_hs.py:108-111 | keywords get a trailing `'`, other names are unchanged, and the result is never a keyword |
| Literals.GenVarInjective | dataset_builder/humaneval_to_hs.py:108-111 | renaming never merges two identifiers without `'` |
| Literals.GenVarCollision | dataset_builder/humaneval_to_hs.py:84 | `if` and `if'` render alike |
| Containers.GenList | dataset_builder/humaneval_to_hs.py:112-113 | a list is bracketed and the empty list is `[]` |
| Containers.GenTuple | dataset_builder/humaneval_to_hs.py:114-115 | a tuple is parenthesised and the empty tuple is `()` |
| Containers.ParseEnclosedRoundTrip | dataset_builder/humaneval_to_hs.py:112-115 | non-empty comma-free element texts are read back unchanged from a rendered list or tuple |
| Containers.ListRoundTrip | dataset_builder/humaneval_to_hs.py:112-113 | the list reader inverts the list renderer on non-empty comma-free elements |
| Containers.TupleRoundTrip | dataset_builder/humaneval_to_hs.py:114-115 | the tuple reader inverts the tuple renderer on non-empty comma-free elements |
| Containers.EmptyElementCollision | dataset_builder/humaneval_to_hs.py:112-113 | the empty list and a list holding one empty text render alike |
| Containers.DictEntries | dataset_builder/humaneval_to_hs.py:116-117 | pairs keys with values position by position, as many as the shorter list |
| Containers.GenDict | dataset_builder/humaneval_to_hs.py:116-117 | a dictionary renders in square brackets; with `DictIsListOfPairs` its text is exactly the list of its zipped pairs |
| Containers.DictIsListOfPairs | dataset_builder/humaneval_to_hs.py:116-117 | a dictionary renders as the list of its (key, value) tuples, dropping the surplus of the longer list |
| Emitter.TranslatePrompt | dataset_builder/humaneval_to_hs.py:92-94 | always stores the signature; succeeds iff every argument type and the return type translate; otherwise reports the first failing argument's error or else the return type's; a prompt starts with `-- ` and ends with `name =` |
| Emitter.PromptSucceedsIffSupported | dataset_builder/humaneval_to_hs.py:94 | a prompt is produced iff all annotations are in the supported grammar |
| Emitter.PromptHashmapIffDict | dataset_builder/humaneval_to_hs.py:94 | the prompt needs the hashmap import iff some argument or the return type mentions `Dict` |
| Emitter.CommentLines | dataset_builder/humaneval_to_hs.py:94 | every description line becomes one comment line |
| Emitter.SignatureChain | dataset_builder/humaneval_to_hs.py:94 | with arguments, the signature is the arrow chain of argument types ending in the return type |
| Emitter.NullarySignature | dataset_builder/humaneval_to_hs.py:94 | with no arguments, the signature is `name ::  -> R` |
| Emitter.PromptLines | dataset_builder/humaneval_to_hs.py:94 | the prompt's lines are the commented description lines, then the signature, then `name =` |
| Emitter.DescriptionRecoverable | dataset_builder/humaneval_to_hs.py:94 | stripping `-- ` from the comment lines and rejoining them gives back the description |
| Emitter.CallArgs | dataset_builder/humaneval_to_hs.py:119-121 | arguments of `candidate` read back as the given arguments under the stored parameter types, which with `CoerceUncoerce` fixes each one as its coercion; other calls keep their arguments |
| Emitter.CallArgsAreCoerced | dataset_builder/humaneval_to_hs.py:119-121 | each argument of a `candidate` call is exactly the given argument coerced to its parameter type (`None` becomes `Nothing` for an `Optional` parameter) |
| Emitter.GenCall | dataset_builder/humaneval_to_hs.py:119-122 | a call starts with `func (` and ends with `)` |
| Emitter.GenCallIsApplication | dataset_builder/humaneval_to_hs.py:119-122 | a call with arguments is the curried application of the function to its (coerced) arguments |
| Emitter.NullaryCall | dataset_builder/humaneval_to_hs.py:119-122 | a call without arguments renders as `func ()` |
| Emitter.Finalize | dataset_builder/humaneval_to_hs.py:131-138 | `lhs` is unchanged; `rhs` reads back as the expected value under the stored return type; any other context is the only failure |
| Emitter.FinalizeCoercesExpected | dataset_builder/humaneval_to_hs.py:131-136 | an expected value is exactly its coercion to the stored return type |
| Emitter.OptionalArgumentPrompt | dataset_builder/humaneval_to_hs.py:92-94 | for `f(x: Optional[int]) -> bool` the prompt is one comment line, `f :: Maybe (Int) -> Bool`, and `f =` |
| Emitter.OptionalArgumentCalls | dataset_builder/humaneval_to_hs.py:119-138 | for that function, `None` and `3` are passed as `Nothing` and `Just (3)`, and an expected `True` stays `True` |
| TestHarness.PrefixLines | dataset_builder/humaneval_to_hs.py:124-125 | two lines: the `main` line naming the entry point, and the opening `check candidate = if (` followed by exactly `True`, the unit of the `&&` chain |
| TestHarness.SuffixLines | dataset_builder/humaneval_to_hs.py:126-127 | one line that closes the condition and then prints `"OK"`, or else fails with `"FAIL"` |
| TestHarness.DeepEquality | dataset_builder/humaneval_to_hs.py:128-129 | each check line starts with the conjunction `   && ` |
| TestHarness.ParseCheckRoundTrip | dataset_builder/humaneval_to_hs.py:128-129 | both sides of a check line read back exactly when no ` == ` starts inside the left side |
| TestHarness.EqualsFreeSplitsCleanly | dataset_builder/humaneval_to_hs.py:128-129 | every left side without `=` reads back |
| TestHarness.QuotedEqualsSplitsCleanly | dataset_builder/humaneval_to_hs.py:128-129 | a left side with a single `=` inside a quoted argument, such as `candidate ("a=b")`, also reads back |
| TestHarness.ProgramLines | dataset_builder/humaneval_to_hs.py:124-129 | the joined test program splits back into its lines, one per check between the opening and closing lines |
| TestHarness.ProgramChecks | dataset_builder/humaneval_to_hs.py:124-129 | every check whose left side splits cleanly (no ` == ` starts inside it) can be read back from its own line of the program |
| Strings.Find | src/local_huggingface_model.py:7 | `-1` iff the token does not occur; otherwise the first index where it occurs |
| Strings.Split | dataset_builder/humaneval_to_hs.py:94 | splitting gives at least one piece, none holds the separator, and joining them with it gives back the text |
| StopTokens.MinStopIndex | src/local_huggingface_model.py:5-9 | the loop's result is at most every found first-occurrence index and equals one of them or the start value |
| StopTokens.StopAtStopToken | src/local_huggingface_model.py:4-10 | the result is a prefix no longer than any found occurrence index; it is the whole input when no token occurs, and otherwise ends at some token's first occurrence |
| StopTokens.CutAtEarliestOccurrence | src/local_huggingface_model.py:5-10 | when some token occurs, the result's length is the smallest first-occurrence index |
| StopTokens.NoStopTokenRemains | src/local_huggingface_model.py:4-10 | no non-empty stop token occurs in the result |
| StopTokens.StopIdempotent | src/local_huggingface_model.py:4-10 | cutting a second time with the same tokens changes nothing |
| StopTokens.StopOrderIrrelevant | src/local_huggingface_model.py:6-9 | the result depends only on which tokens are listed, not on their order or repetition |
| StopTokens.MoreTokensCutEarlier | src/local_huggingface_model.py:6-9 | listing more tokens can only shorten the result |
| EvalHs.StatusText | evaluation/src/eval_hs.py:7-14 | the status is one of `OK`, `Exception`, `Timeout` |
| EvalHs.Classify | evaluation/src/eval_hs.py:7-14 | `Timeout` iff timed out; `OK` iff not timed out, exit code 0 and no `error` in either stream; `Exception` otherwise |
| EvalHs.EvalScript | evaluation/src/eval_hs.py:15-20 | exit code and both streams are copied; the written status reads back as the classification |
| EvalHs.ErrorMatchIsCaseSensitive | evaluation/src/eval_hs.py:11-12 | a clean run printing `ERROR` passes; one printing `no errors` fails |
| EvalHs.HarnessOutcomes | evaluation/src/eval_hs.py:9-14 | a clean run printing `OK` passes; a run that finishes in time with any non-zero exit code is an exception whatever it printed |

## Left out

- The `LocalHuggingfaceModel` class (`src/local_huggingface_model.py:12-56`):
  model loading, GPU use and sampling are foreign numeric code.
- `_decode_single_output`: its input comes from the tokenizer's `decode`, a
  foreign call.
- The `run` call and `safe_subprocess` in `eval_script`: process execution
  and timeouts. The run's result is an input (`EvalHs.RunOutcome`).
- Python's `repr` of floats, ints and bools. Floats and ints arrive as their
  rendered text. `FixFloat` works on that text. Booleans render as `True` /
  `False`.
- Python `ast` parsing. Annotations are the `Annotations.Annotation`
  datatype, and any node kind the translator does not match on is `Other`.
- Exception message texts. Each failure is a distinct `TranslateError` or
  `FinalizeError` value.
- TypeTranslation.TranslateType: on a failure no hashmap flag is returned. In
  the source `needs_hashmap` is a module global that is set and never reset
  in this file, so it can stay set after a `Dict` was translated before a
  later failure, and it stays set across later prompts. The model reports,
  for each successful translation, whether that translation sets the flag.
  The global after several prompts is the OR of the values of the successful
  prompts, plus any `Dict` met before a failure.
- The translator as a mutable object. `self.type` is an explicit
  `Translator` value returned by `TranslatePrompt` and passed to `GenCall` and
  `Finalize`.
- `file_ext` and the `stop` list of the translator: constants with no logic.
- Assembling the test program from its lines, and iterating over the tests,
  happens in the generic dataset builder. `TestHarness.TestProgram` puts
  the lines in that order only to state the line-level properties.
- Emitter.GenCall: the source would raise an index or attribute error for a
  `candidate` call made before any prompt or with more arguments than
  parameters. The model requires a stored signature with enough parameter
  types instead of modelling that crash.
- Emitter.Finalize: likewise requires a stored signature for `"rhs"`.

=== FILE: annotations.dfy ===
/** Python type annotations as the translator sees them: the few `ast`
    node kinds it pattern-matches on, with everything else collapsed. */
module Annotations {

  datatype Annotation =
    | Name(id: string)                                 // `int`, `List`, `Any`, ...
    | Subscript(value: Annotation, slice: Annotation)  // `value[slice]`
    | TupleNode(elts: seq<Annotation>)                 // `a, b` inside a subscript
    | Constant(repr: string)                           // a literal such as `...`
    | Absent                                           // no annotation was written
    | Other                                            // any other node (attribute, operator, ...)

  /** `a` is `name[...]`, a generic applied directly to a bare name. */
  predicate IsGeneric(a: Annotation, name: string) {
    a.Subscript? && a.value == Name(name)
  }

  /** The four scalar type names the translator knows. */
  predicate IsPrimitiveName(id: string) {
    id == "int" || id == "float" || id == "bool" || id == "str"
  }

  /** Some `Dict[...]` subscript appears anywhere inside `a`. */
  ghost predicate MentionsDict(a: Annotation) {
    match a
    case Subscript(v, s) => v == Name("Dict") || MentionsDict(v) || MentionsDict(s)
    case TupleNode(es) => exists i :: 0 <= i < |es| && MentionsDict(es[i])
    case _ => false
  }

  /** The closed grammar of annotations the translator accepts: the four
      primitives, `List[T]`, `Optional[T]`, `Tuple[T1, ..., Tn]` without a
      top-level `Optional` element, and `Dict[K, V]` over two primitive names. */
  ghost predicate Supported(a: Annotation) {
    match a
    case Name(id) => IsPrimitiveName(id)
    case Subscript(Name(g), s) =>
      if g == "List" || g == "Optional" then Supported(s)
      else if g == "Tuple" then
        && s.TupleNode?
        && (forall i :: 0 <= i < |s.elts| ==> !IsGeneric(s.elts[i], "Optional"))
        && (forall i :: 0 <= i < |s.elts| ==> Supported(s.elts[i]))
      else if g == "Dict" then
        && s.TupleNode? && |s.elts| == 2
        && s.elts[0].Name? && IsPrimitiveName(s.elts[0].id)
        && s.elts[1].Name? && IsPrimitiveName(s.elts[1].id)
      else false
    case _ => false
  }
}

=== FILE: coercion.dfy ===
/** `coerce`: rewriting a rendered value for its declared type. Only a
    top-level `Optional[...]` declaration changes anything: Python's `None`
    becomes `Nothing`, any other value `v` becomes `Just (v)`. */
module Coercion {
  import opened Results
  import opened Strings
  import opened Annotations
  import opened TypeTranslation
  import opened Literals

  function Coerce(expr: string, ty: Annotation): (r: string)
    ensures !IsGeneric(ty, "Optional") ==> r == expr
    ensures IsGeneric(ty, "Optional") ==> (r == "Nothing" <==> expr == "None")
    ensures IsGeneric(ty, "Optional") && expr != "None" ==> StartsWith(r, "Just (") && EndsWith(r, ")")
  {
    if IsGeneric(ty, "Optional") then
      if expr == "None" then "Nothing"
      else
        var wrapped := "Just (" + expr + ")";
        assert wrapped[0] == 'J';
        wrapped
    else
      expr
  }

  /** Reads a coerced value back to the text it was made from: the inverse
      of Coerce for each declared type. `Just (None)` is not a coerced
      value, since `None` always becomes `Nothing`. */
  function Uncoerce(r: string, ty: Annotation): Option<string> {
    if !IsGeneric(ty, "Optional") then Some(r)
    else if r == "Nothing" then Some("None")
    else if StartsWith(r, "Just (") && EndsWith(r, ")") && |r| >= 7 && r[6..|r| - 1] != "None" then
      Some(r[6..|r| - 1])
    else None
  }

  /** Coercion loses nothing: the original text can always be read back. */
  lemma UncoerceCoerce(expr: string, ty: Annotation)
    ensures Uncoerce(Coerce(expr, ty), ty) == Some(expr)
  {
    if IsGeneric(ty, "Optional") && expr != "None" {
      var r := "Just (" + expr + ")";
      assert r[..6] == "Just (";
      assert r[6..|r| - 1] == expr;
    }
  }

  /** Conversely, whatever reads back as `expr` is exactly the coerced
      `expr`: the reading admits one coerced text per value. */
  lemma CoerceUncoerce(r: string, expr: string, ty: Annotation)
    requires Uncoerce(r, ty) == Some(expr)
    ensures r == Coerce(expr, ty)
  {
    if IsGeneric(ty, "Optional") && r != "Nothing" {
      assert r == r[..6] + r[6..|r| - 1] + r[|r| - 1..];
    }
  }

  /** The `None` literal, rendered as `None`, becomes `Nothing` exactly
      where the declared type is `Optional[...]`. */
  lemma NoneBecomesNothing(ty: Annotation)
    ensures IsGeneric(ty, "Optional") ==> Coerce(GenLiteral(NoneLit), ty) == "Nothing"
    ensures !IsGeneric(ty, "Optional") ==> Coerce(GenLiteral(NoneLit), ty) == "None"
  {
  }

  /** Hence distinct texts stay distinct after coercion. */
  lemma CoerceInjective(e1: string, e2: string, ty: Annotation)
    requires Coerce(e1, ty) == Coerce(e2, ty)
    ensures e1 == e2
  {
    UncoerceCoerce(e1, ty);
    UncoerceCoerce(e2, ty);
  }

  /** Coercion wraps exactly the values whose declared type translates to a
      Haskell `Maybe`: the two decisions look at the same top-level shape. */
  lemma CoercionFollowsMaybe(ty: Annotation)
    requires TranslateType(ty).Ok?
    ensures IsGeneric(ty, "Optional") <==> StartsWith(TranslateType(ty).value.text, "Maybe (")
  {
    var text := TranslateType(ty).value.text;
    TextShape(ty);
    if IsGeneric(ty, "Optional") {
      assert text[..7] == "Maybe (";
    } else {
      assert text[0] != 'M';
      assert !StartsWith(text, "Maybe (") by {
        if |text| >= 7 {
          assert text[..7][0] == text[0];
        }
      }
    }
  }
}

=== FILE: containers.dfy ===
/** `gen_list`, `gen_tuple` and `gen_dict`: rendering already-rendered
    element texts as Haskell list, tuple and association-list literals. */
module Containers {
  import opened Results
  import opened Strings

  /** Element texts between `open` and `close`, separated by ", ". */
  function Enclose(open: char, elements: seq<string>, close: char): (r: string)
    ensures |r| >= 2 && r[0] == open && r[|r| - 1] == close
    ensures r[1..|r| - 1] == Join(", ", elements)
  {
    [open] + Join(", ", elements) + [close]
  }

  function GenList(elements: seq<string>): (r: string)
    ensures |r| >= 2 && r[0] == '[' && r[|r| - 1] == ']'
    ensures |elements| == 0 ==> r == "[]"
  {
    Enclose('[', elements, ']')
  }

  function GenTuple(elements: seq<string>): (r: string)
    ensures |r| >= 2 && r[0] == '(' && r[|r| - 1] == ')'
    ensures |elements| == 0 ==> r == "()"
  {
    Enclose('(', elements, ')')
  }

  /** Python's `zip(keys, values)`, rendered pair by pair: it stops at the
      shorter of the two lists. */
  function DictEntries(keys: seq<string>, values: seq<string>): (r: seq<string>)
    ensures |r| == if |keys| <= |values| then |keys| else |values|
    ensures forall i :: 0 <= i < |r| ==> r[i] == "(" + keys[i] + ", " + values[i] + ")"
    decreases |keys|
  {
    if |keys| == 0 || |values| == 0 then []
    else ["(" + keys[0] + ", " + values[0] + ")"] + DictEntries(keys[1..], values[1..])
  }

  function GenDict(keys: seq<string>, values: seq<string>): (r: string)
    ensures |r| >= 2 && r[0] == '[' && r[|r| - 1] == ']'
  {
    "[" + Join(", ", DictEntries(keys, values)) + "]"
  }

  /** Removes the single space the ", " separator leaves at the head of every
      piece after the first. */
  function DropLeadingSpace(pieces: seq<string>): (r: seq<string>)
    ensures |r| == |pieces|
  {
    seq(|pieces|, i requires 0 <= i < |pieces| =>
      if StartsWith(pieces[i], " ") then pieces[i][1..] else pieces[i])
  }

  /** Reads a rendered list or tuple back into its element texts. */
  function ParseEnclosed(open: char, r: string, close: char): Option<seq<string>> {
    if |r| < 2 || r[0] != open || r[|r| - 1] != close then None
    else
      var inner := r[1..|r| - 1];
      if inner == "" then Some([])
      else
        var pieces := Split(inner, ',');
        Some([pieces[0]] + DropLeadingSpace(pieces[1..]))
  }

  /** Element texts that are non-empty and comma-free come back unchanged:
      rendering loses nothing. (An empty element would make `[""]` and `[]`
      render alike, and commas inside an element are ambiguous.) */
  lemma ParseEnclosedRoundTrip(open: char, elements: seq<string>, close: char)
    requires forall i :: 0 <= i < |elements| ==> elements[i] != "" && ',' !in elements[i]
    ensures ParseEnclosed(open, Enclose(open, elements, close), close) == Some(elements)
  {
    var r := Enclose(open, elements, close);
    var inner := r[1..|r| - 1];
    if |elements| > 0 {
      JoinLongSeparator(',', " ", elements);
      var parts := [elements[0]] + PrefixAll(" ", elements[1..]);
      assert forall i :: 0 <= i < |parts| ==> ',' !in parts[i] by {
        forall i | 0 <= i < |parts| ensures ',' !in parts[i] {
          if i > 0 {
            assert parts[i] == " " + elements[i];
          }
        }
      }
      SplitJoin(parts, ',');
      assert ", " == [','] + " ";
      assert inner == Join([','], parts);
      assert inner != "" by {
        if |parts| > 1 {
          assert inner == parts[0] + [','] + Join([','], parts[1..]);
        }
      }
      var back := DropLeadingSpace(parts[1..]);
      forall i | 0 <= i < |back| ensures back[i] == elements[i + 1] {
        assert parts[i + 1] == " " + elements[i + 1];
        assert StartsWith(parts[i + 1], " ");
      }
      assert [parts[0]] + back == elements;
    }
  }

  lemma ListRoundTrip(elements: seq<string>)
    requires forall i :: 0 <= i < |elements| ==> elements[i] != "" && ',' !in elements[i]
    ensures ParseEnclosed('[', GenList(elements), ']') == Some(elements)
  {
    ParseEnclosedRoundTrip('[', elements, ']');
  }

  lemma TupleRoundTrip(elements: seq<string>)
    requires forall i :: 0 <= i < |elements| ==> elements[i] != "" && ',' !in elements[i]
    ensures ParseEnclosed('(', GenTuple(elements), ')') == Some(elements)
  {
    ParseEnclosedRoundTrip('(', elements, ')');
  }

  /** Without the non-empty condition the round trip fails: an empty list
      and a list holding one empty text render alike. */
  lemma EmptyElementCollision()
    ensures GenList([]) == GenList([""])
  {
  }

  /** A dictionary renders as the list of its (key, value) tuples, pairing
      keys and values position by position and dropping the surplus of the
      longer list. */
  lemma DictIsListOfPairs(keys: seq<string>, values: seq<string>)
    ensures var n := if |keys| <= |values| then |keys| else |values|;
      GenDict(keys, values) == GenList(seq(n, i requires 0 <= i < n => GenTuple([keys[i], values[i]])))
  {
    EntriesArePairs(keys, values);
  }

  lemma EntriesArePairs(keys: seq<string>, values: seq<string>)
    ensures var n := if |keys| <= |values| then |keys| else |values|;
      DictEntries(keys, values) == seq(n, i requires 0 <= i < n => GenTuple([keys[i], values[i]]))
  {
    var n := if |keys| <= |values| then |keys| else |values|;
    var entries := DictEntries(keys, values);
    var pairs := seq(n, i requires 0 <= i < n => GenTuple([keys[i], values[i]]));
    forall i | 0 <= i < n ensures entries[i] == pairs[i] {
      PairText(keys[i], values[i]);
    }
  }

  lemma PairText(k: string, v: string)
    ensures GenTuple([k, v]) == "(" + k + ", " + v + ")"
  {
    assert Join(", ", [k, v]) == k + ", " + Join(", ", [v]);
  }
}

=== FILE: emitter.dfy ===
/** The `Translator` object: the prompt it emits for a function signature,
    and the two operations that depend on the signature it remembers,
    `gen_call` and `finalize`. */
module Emitter {
  import opened Results
  import opened Strings
  import opened Annotations
  import opened TypeTranslation
  import opened Coercion

  /** The declared argument and return annotations of the function being
      translated (the translator's `type` attribute). */
  datatype Context = Context(argTypes: seq<Annotation>, returnType: Annotation)

  /** A translator either has not yet seen a prompt or remembers the last
      signature it was given. */
  datatype Translator = Translator(ctx: Option<Context>)

  /** A translated prompt and the source's `needs_hashmap` flag: whether
      its types mention a `Dict`, which becomes a list of pairs. */
  datatype Prompt = Prompt(text: string, needsHashmap: bool)

  datatype PromptOutcome = PromptOutcome(translator: Translator, prompt: Result<Prompt, TranslateError>)

  datatype FinalizeError = BadContext

  /** The description as Haskell line comments, one `-- ` per line. */
  function CommentBlock(description: string): string {
    "-- " + Join("\n-- ", Split(description, '\n'))
  }

  /** `name :: A1 -> ... -> An -> R`; with no arguments the source still
      emits the separator, giving `name ::  -> R`. */
  function Signature(name: string, argTexts: seq<string>, returnText: string): string {
    name + " :: " + Join(" -> ", argTexts) + " -> " + returnText
  }

  /** Records the signature (even when it cannot be translated, since the
      source stores it first), then renders the comment block, the type
      signature and the start of the definition. Arguments are translated
      before the return type, so the first failure among them is reported. */
  function TranslatePrompt(name: string, args: seq<Annotation>, returnType: Annotation, description: string)
    : (r: PromptOutcome)
    ensures r.translator == Translator(Some(Context(args, returnType)))
    ensures r.prompt.Ok? <==>
      (forall i :: 0 <= i < |args| ==> TranslateType(args[i]).Ok?) && TranslateType(returnType).Ok?
    ensures r.prompt.Fail? ==>
      (exists i :: 0 <= i < |args| && TranslateType(args[i]).Fail? && r.prompt.error == TranslateType(args[i]).error
                   && forall j :: 0 <= j < i ==> TranslateType(args[j]).Ok?)
      || ((forall i :: 0 <= i < |args| ==> TranslateType(args[i]).Ok?) && r.prompt.error == TranslateType(returnType).error)
    ensures r.prompt.Ok? ==>
      StartsWith(r.prompt.value.text, "-- ") && EndsWith(r.prompt.value.text, "\n" + name + " =")
  {
    var tr := Translator(Some(Context(args, returnType)));
    match TranslateAll(args)
    case Fail(e) => PromptOutcome(tr, Fail(e))
    case Ok(argTs) =>
      match TranslateType(returnType)
      case Fail(e) => PromptOutcome(tr, Fail(e))
      case Ok(retT) =>
        var text := CommentBlock(description) + "\n" + Signature(name, Texts(argTs), retT.text) + "\n" + name + " =";
        assert text[..3] == "-- ";
        assert text[|text| - |"\n" + name + " ="|..] == "\n" + name + " =";
        PromptOutcome(tr, Ok(Prompt(text, AnyNeedsHashmap(argTs) || retT.needsHashmap)))
  }

  /** The texts the arguments translate to, when they all translate. */
  function ArgTexts(args: seq<Annotation>): (r: seq<string>)
    requires forall i :: 0 <= i < |args| ==> TranslateType(args[i]).Ok?
    ensures |r| == |args|
    ensures forall i :: 0 <= i < |args| ==> '\n' !in r[i]
  {
    seq(|args|, i requires 0 <= i < |args| => TranslateType(args[i]).value.text)
  }

  /** A prompt can be produced exactly when every argument annotation and
      the return annotation belong to the supported type grammar. */
  lemma PromptSucceedsIffSupported(name: string, args: seq<Annotation>, returnType: Annotation, description: string)
    ensures TranslatePrompt(name, args, returnType, description).prompt.Ok? <==>
      (forall i :: 0 <= i < |args| ==> Supported(args[i])) && Supported(returnType)
  {
    forall i | 0 <= i < |args| ensures TranslateType(args[i]).Ok? <==> Supported(args[i]) {
      TranslateSucceedsIffSupported(args[i]);
    }
    TranslateSucceedsIffSupported(returnType);
  }

  /** The prompt asks for the association-list import exactly when some
      argument or the return type mentions `Dict`. */
  lemma PromptHashmapIffDict(name: string, args: seq<Annotation>, returnType: Annotation, description: string)
    requires TranslatePrompt(name, args, returnType, description).prompt.Ok?
    ensures TranslatePrompt(name, args, returnType, description).prompt.value.needsHashmap <==>
      (exists i :: 0 <= i < |args| && MentionsDict(args[i])) || MentionsDict(returnType)
  {
    var argTs := TranslateAll(args).value;
    forall i | 0 <= i < |args| ensures argTs[i].needsHashmap <==> MentionsDict(args[i]) {
      HashmapFlagIffDict(args[i]);
    }
    HashmapFlagIffDict(returnType);
    assert AnyNeedsHashmap(argTs) <==> exists i :: 0 <= i < |args| && MentionsDict(args[i]) by {
      if AnyNeedsHashmap(argTs) {
        var i :| 0 <= i < |argTs| && argTs[i].needsHashmap;
        assert MentionsDict(args[i]);
      }
      if exists i :: 0 <= i < |args| && MentionsDict(args[i]) {
        var i :| 0 <= i < |args| && MentionsDict(args[i]);
        assert argTs[i].needsHashmap;
      }
    }
  }

  /** Every line of the description becomes one comment line. */
  lemma CommentLines(description: string)
    ensures Split(CommentBlock(description), '\n') == PrefixAll("-- ", Split(description, '\n'))
  {
    JoinSplitIsReplace(description, '\n', "\n-- ");
    assert "\n-- " == ['\n'] + "-- ";
    SplitPrefixedReplace("-- ", description, '\n');
  }

  /** With at least one argument the signature is the arrow-separated chain
      of argument types ending in the return type. */
  lemma SignatureChain(name: string, argTexts: seq<string>, returnText: string)
    requires |argTexts| >= 1
    ensures Signature(name, argTexts, returnText) == name + " :: " + Join(" -> ", argTexts + [returnText])
  {
    JoinSnoc(" -> ", argTexts, returnText);
    Regroup4(name + " :: ", Join(" -> ", argTexts), " -> ", returnText);
  }

  /** With no arguments the source still emits the separator, leaving a
      dangling arrow after a double space. */
  lemma NullarySignature(name: string, returnText: string)
    ensures Signature(name, [], returnText) == name + " ::  -> " + returnText
  {
    var joined := Join(" -> ", []);
    assert joined == "";
    assert " :: " + joined + " -> " == " ::  -> ";
    assert name + " :: " + joined + " -> " + returnText == name + (" :: " + joined + " -> ") + returnText;
  }

  /** The prompt's lines are the commented description lines, then the
      signature, then `name =`. */
  lemma PromptLines(name: string, args: seq<Annotation>, returnType: Annotation, description: string)
    requires TranslatePrompt(name, args, returnType, description).prompt.Ok?
    requires '\n' !in name
    ensures forall i :: 0 <= i < |args| ==> TranslateType(args[i]).Ok?
    ensures TranslateType(returnType).Ok?
    ensures Split(TranslatePrompt(name, args, returnType, description).prompt.value.text, '\n') ==
      PrefixAll("-- ", Split(description, '\n'))
      + [Signature(name, ArgTexts(args), TranslateType(returnType).value.text), name + " ="]
  {
    var text := TranslatePrompt(name, args, returnType, description).prompt.value.text;
    var argTs := TranslateAll(args).value;
    assert Texts(argTs) == ArgTexts(args);
    var sig := Signature(name, ArgTexts(args), TranslateType(returnType).value.text);
    var cb := CommentBlock(description);
    var tail := name + " =";
    assert text == cb + ['\n'] + (sig + ['\n'] + tail);
    JoinAvoids(" -> ", ArgTexts(args), '\n');
    assert '\n' !in sig;
    SplitConcat(cb, sig + ['\n'] + tail, '\n');
    SplitConcat(sig, tail, '\n');
    SplitWithout(sig, '\n');
    SplitWithout(tail, '\n');
    CommentLines(description);
  }

  /** A comment line without its `-- ` marker. */
  function Uncomment(line: string): string {
    if StartsWith(line, "-- ") then line[3..] else line
  }

  /** Stripping the `-- ` from every comment line and rejoining them gives
      back the description: the prompt loses none of it. */
  lemma DescriptionRecoverable(name: string, args: seq<Annotation>, returnType: Annotation, description: string)
    requires TranslatePrompt(name, args, returnType, description).prompt.Ok?
    requires '\n' !in name
    ensures var lines := Split(TranslatePrompt(name, args, returnType, description).prompt.value.text, '\n');
      |lines| >= 3 &&
      Join("\n", seq(|lines| - 2, i requires 0 <= i < |lines| - 2 => Uncomment(lines[i]))) == description
  {
    PromptLines(name, args, returnType, description);
    var sig := Signature(name, ArgTexts(args), TranslateType(returnType).value.text);
    UncommentLines(Split(description, '\n'), [sig, name + " ="]);
  }

  lemma UncommentLines(pieces: seq<string>, rest: seq<string>)
    requires |pieces| >= 1 && |rest| == 2
    ensures var lines := PrefixAll("-- ", pieces) + rest;
      seq(|lines| - 2, i requires 0 <= i < |lines| - 2 => Uncomment(lines[i])) == pieces
  {
    var lines := PrefixAll("-- ", pieces) + rest;
    var stripped := seq(|lines| - 2, i requires 0 <= i < |lines| - 2 => Uncomment(lines[i]));
    forall i | 0 <= i < |pieces| ensures stripped[i] == pieces[i] {
      assert lines[i] == "-- " + pieces[i];
      assert StartsWith(lines[i], "-- ");
    }
  }

  /** A call needs the remembered signature only when it calls the function
      under test, and then one declared type per argument. */
  predicate CallAllowed(tr: Translator, func: string, args: seq<string>) {
    func == "candidate" ==> tr.ctx.Some? && |args| <= |tr.ctx.value.argTypes|
  }

  /** The arguments as they appear in the call: coerced to the declared
      parameter types when calling the function under test, as given for
      any other function. */
  function CallArgs(tr: Translator, func: string, args: seq<string>): (r: seq<string>)
    requires CallAllowed(tr, func, args)
    ensures |r| == |args|
    ensures func != "candidate" ==> r == args
    ensures func == "candidate" ==>
      forall i :: 0 <= i < |args| ==> Uncoerce(r[i], tr.ctx.value.argTypes[i]) == Some(args[i])
  {
    if func == "candidate" then
      var types := tr.ctx.value.argTypes;
      var r := seq(|args|, i requires 0 <= i < |args| => Coerce(args[i], types[i]));
      assert forall i :: 0 <= i < |args| ==> Uncoerce(r[i], types[i]) == Some(args[i]) by {
        forall i | 0 <= i < |args| ensures Uncoerce(r[i], types[i]) == Some(args[i]) {
          UncoerceCoerce(args[i], types[i]);
        }
      }
      r
    else args
  }

  /** Since a coerced text reads back only from itself, the call's
      arguments are exactly the coerced arguments. */
  lemma CallArgsAreCoerced(tr: Translator, args: seq<string>, i: int)
    requires CallAllowed(tr, "candidate", args) && 0 <= i < |args|
    ensures CallArgs(tr, "candidate", args)[i] == Coerce(args[i], tr.ctx.value.argTypes[i])
  {
    CoerceUncoerce(CallArgs(tr, "candidate", args)[i], args[i], tr.ctx.value.argTypes[i]);
  }

  function GenCall(tr: Translator, func: string, args: seq<string>): (r: string)
    requires CallAllowed(tr, func, args)
    ensures StartsWith(r, func + " (") && EndsWith(r, ")")
  {
    var r := func + " (" + Join(") (", CallArgs(tr, func, args)) + ")";
    assert r[..|func + " ("|] == func + " (";
    r
  }

  /** Reference reading of a Haskell call: curried application of `f` to one
      parenthesised argument after another. */
  function Apply(f: string, args: seq<string>): string
    decreases |args|
  {
    if |args| == 0 then f else Apply(f, args[..|args| - 1]) + " (" + args[|args| - 1] + ")"
  }

  lemma {:induction false} JoinedApplication(f: string, xs: seq<string>)
    requires |xs| >= 1
    ensures f + " (" + Join(") (", xs) + ")" == Apply(f, xs)
    decreases |xs|
  {
    var n := |xs|;
    var ys := xs[..n - 1];
    var x := xs[n - 1];
    assert xs == ys + [x];
    if n == 1 {
      assert Join(") (", xs) == x;
      assert Apply(f, ys) == f;
    } else {
      JoinedApplication(f, ys);
      JoinAppend(") (", ys, [x]);
      assert Join(") (", [x]) == x;
      var jy := Join(") (", ys);
      assert Join(") (", xs) == jy + ") (" + x;
      assert f + " (" + (jy + ") (" + x) + ")" == (f + " (" + jy + ")") + " (" + x + ")";
    }
  }

  /** A call with arguments is the curried application of the function to
      its (coerced) arguments. */
  lemma GenCallIsApplication(tr: Translator, func: string, args: seq<string>)
    requires CallAllowed(tr, func, args) && |args| >= 1
    ensures GenCall(tr, func, args) == Apply(func, CallArgs(tr, func, args))
  {
    JoinedApplication(func, CallArgs(tr, func, args));
  }

  /** The source assumes calls have arguments; without any it renders an
      application to Haskell's unit value. */
  lemma NullaryCall(tr: Translator, func: string)
    requires CallAllowed(tr, func, [])
    ensures GenCall(tr, func, []) == func + " ()"
  {
    assert Join(") (", CallArgs(tr, func, [])) == "";
  }

  /** An expected value (`rhs`) is coerced to the declared return type; a
      computed one (`lhs`) is left alone; any other context is an error. */
  function Finalize(tr: Translator, result: string, context: string): (r: Result<string, FinalizeError>)
    requires context == "rhs" ==> tr.ctx.Some?
    ensures context == "lhs" ==> r == Ok(result)
    ensures r.Fail? <==> context != "lhs" && context != "rhs"
    ensures context == "rhs" ==> Uncoerce(r.value, tr.ctx.value.returnType) == Some(result)
    ensures context == "rhs" && !IsGeneric(tr.ctx.value.returnType, "Optional") ==> r == Ok(result)
  {
    if context == "lhs" then Ok(result)
    else if context == "rhs" then
      UncoerceCoerce(result, tr.ctx.value.returnType);
      Ok(Coerce(result, tr.ctx.value.returnType))
    else Fail(BadContext)
  }

  /** An expected value is exactly its coercion to the return type. */
  lemma FinalizeCoercesExpected(tr: Translator, result: string)
    requires tr.ctx.Some?
    ensures Finalize(tr, result, "rhs") == Ok(Coerce(result, tr.ctx.value.returnType))
  {
    CoerceUncoerce(Finalize(tr, result, "rhs").value, result, tr.ctx.value.returnType);
  }

  /** One function end to end, `f(x: Optional[int]) -> bool`: its prompt
      is the commented description line, the signature with `Maybe (Int)`
      and `Bool`, and `f =`, */
  lemma OptionalArgumentPrompt(name: string, description: string)
    requires '\n' !in name && '\n' !in description
    ensures var x := Subscript(Name("Optional"), Name("int"));
      var out := TranslatePrompt(name, [x], Name("bool"), description);
      out.translator == Translator(Some(Context([x], Name("bool"))))
      && out.prompt.Ok? && !out.prompt.value.needsHashmap
      && Split(out.prompt.value.text, '\n') ==
           ["-- " + description, Signature(name, ["Maybe (Int)"], "Bool"), name + " ="]
  {
    var x := Subscript(Name("Optional"), Name("int"));
    PrimitiveShapes();
    ListAndOptionalShapes(Name("int"));
    assert "Maybe (" + "Int" + ")" == "Maybe (Int)";
    assert TranslateType(x) == Ok(Translated("Maybe (Int)", false));
    assert ArgTexts([x]) == ["Maybe (Int)"];
    var all := TranslateAll([x]);
    assert all.Ok? && |all.value| == 1 && all.value[0] == Translated("Maybe (Int)", false);
    assert !AnyNeedsHashmap(all.value);
    PromptLines(name, [x], Name("bool"), description);
    SplitWithout(description, '\n');
  }

  /** and a test call with `None` and with `3`, and an expected `True`. */
  lemma OptionalArgumentCalls()
    ensures var tr := Translator(Some(Context([Subscript(Name("Optional"), Name("int"))], Name("bool"))));
      GenCall(tr, "candidate", ["None"]) == "candidate (Nothing)"
      && GenCall(tr, "candidate", ["3"]) == "candidate (Just (3))"
      && Finalize(tr, "True", "rhs") == Ok("True")
  {
    var tr := Translator(Some(Context([Subscript(Name("Optional"), Name("int"))], Name("bool"))));
    assert CallArgs(tr, "candidate", ["None"]) == ["Nothing"];
    var ty := Subscript(Name("Optional"), Name("int"));
    assert Coerce("3", ty) == "Just (" + "3" + ")" == "Just (3)";
    assert CallArgs(tr, "candidate", ["3"]) == ["Just (3)"];
  }
}

=== FILE: eval_hs.dfy ===
/** Classifying one run of a generated Haskell test program. The run itself
    (spawning `runhaskell` under a time limit) is an input here. */
module EvalHs {
  import opened Results
  import opened Strings

  /** What the process runner reports about one run. */
  datatype RunOutcome = RunOutcome(timeout: bool, exitCode: int, stdout: string, stderr: string)

  datatype Status = OK | Exception | Timeout

  /** The record written for one program: its status and the raw run data. */
  datatype EvalResult = EvalResult(status: string, exitCode: int, stdout: string, stderr: string)

  function StatusText(s: Status): (t: string)
    ensures t in {"OK", "Exception", "Timeout"}
  {
    match s
    case OK => "OK"
    case Exception => "Exception"
    case Timeout => "Timeout"
  }

  /** Reads a written status back. */
  function ParseStatus(t: string): Option<Status> {
    if t == "OK" then Some(OK)
    else if t == "Exception" then Some(Exception)
    else if t == "Timeout" then Some(Timeout)
    else None
  }

  /** A time-out wins over everything; then a non-zero exit code or the
      lower-case word "error" anywhere in either output stream counts as a
      failure; anything else passed. */
  function Classify(r: RunOutcome): (s: Status)
    ensures s == Timeout <==> r.timeout
    ensures s == OK <==>
      !r.timeout && r.exitCode == 0 && !Contains(r.stdout, "error") && !Contains(r.stderr, "error")
    ensures s == Exception <==>
      !r.timeout && (r.exitCode != 0 || Contains(r.stdout, "error") || Contains(r.stderr, "error"))
  {
    if r.timeout then Timeout
    else if r.exitCode != 0 then Exception
    else if Find(r.stdout, "error") != -1 || Find(r.stderr, "error") != -1 then Exception
    else OK
  }

  function EvalScript(r: RunOutcome): (e: EvalResult)
    ensures e.exitCode == r.exitCode && e.stdout == r.stdout && e.stderr == r.stderr
    ensures ParseStatus(e.status) == Some(Classify(r))
    ensures e.status == "OK" <==> !r.timeout && r.exitCode == 0 && !Contains(r.stdout, "error") && !Contains(r.stderr, "error")
    ensures e.status == "Timeout" <==> r.timeout
  {
    EvalResult(StatusText(Classify(r)), r.exitCode, r.stdout, r.stderr)
  }

  /** The match on "error" is case-sensitive: a program that exits cleanly
      but prints "ERROR" still passes, while one that prints "no errors"
      fails. */
  lemma ErrorMatchIsCaseSensitive()
    ensures Classify(RunOutcome(false, 0, "ERROR", "")) == OK
    ensures Classify(RunOutcome(false, 0, "no errors", "")) == Exception
  {
    assert OccursAt("no errors", "error", 3);
    assert !Contains("ERROR", "error") by {
      forall i: nat ensures !OccursAt("ERROR", "error", i) {
        if i + 5 <= 5 {
          assert "ERROR"[i..i + 5][0] != 'e';
        }
      }
    }
    assert !Contains("", "error");
  }

  /** The test program's own outcomes: printing OK and exiting cleanly
      passes; a run that ends in time with a non-zero exit code, as the
      failure path does, never passes, whatever it printed. */
  lemma HarnessOutcomes(code: int, stdout: string, stderr: string)
    ensures Classify(RunOutcome(false, 0, "OK\n", "")) == OK
    ensures code != 0 ==> Classify(RunOutcome(false, code, stdout, stderr)) == Exception
  {
    assert !Contains("OK\n", "error");
    assert !Contains("", "error");
  }
}

=== FILE: harness.dfy ===
/** The test program around the translated tests: its opening lines, its
    closing line, and one line per equality check. Together they form

      main = check f
      check candidate = if (True
         && lhs1 == rhs1
         ...
        ) then putStrLn "OK" else error "FAIL"  */
module TestHarness {
  import opened Results
  import opened Strings

  function PrefixLines(entryPoint: string): (r: seq<string>)
    ensures |r| == 2
    ensures r[0] == "main = check " + entryPoint
    ensures StartsWith(r[1], "check candidate = if (")
    // The condition opens with `True`, the unit of the `&&` chain that
    // follows, so the checks alone decide the outcome.
    ensures r[1][|"check candidate = if ("|..] == "True"
  {
    ["main = check " + entryPoint, "check candidate = if (True"]
  }

  /** Closes the condition; the program prints `OK` when it holds and
      fails with `FAIL` otherwise. */
  function SuffixLines(): (r: seq<string>)
    ensures |r| == 1 && '\n' !in r[0]
    ensures StartsWith(r[0], "  ) then ")
    ensures var rest := r[0][|"  ) then "|..];
      StartsWith(rest, "putStrLn \"OK\" else ") && EndsWith(rest, "error \"FAIL\"")
  {
    ["  ) then putStrLn \"OK\" else error \"FAIL\""]
  }

  function DeepEquality(left: string, right: string): (r: string)
    ensures StartsWith(r, "   && ")
  {
    "   && " + left + " == " + right
  }

  /** Reads a check line back into its two sides, splitting at the first
      " == " after the leading conjunction. */
  function ParseCheck(line: string): Option<(string, string)> {
    if !StartsWith(line, "   && ") then None
    else
      var body := line[6..];
      var k := Find(body, " == ");
      if k == -1 then None else Some((body[..k], body[k + 4..]))
  }

  /** No " == " starts inside `left` itself, even one that runs on into
      the separator that follows it. */
  predicate SplitsCleanly(left: string) {
    forall j: nat :: j < |left| ==> !OccursAt(left + " ==", " == ", j)
  }

  /** A check line gives back both of its sides exactly when its left side
      splits cleanly (the right side is unrestricted). */
  lemma ParseCheckRoundTrip(left: string, right: string)
    ensures ParseCheck(DeepEquality(left, right)) == Some((left, right)) <==> SplitsCleanly(left)
  {
    var line := DeepEquality(left, right);
    var body := line[6..];
    assert body == left + " == " + right;
    assert OccursAt(body, " == ", |left|);
    var k := Find(body, " == ");
    if SplitsCleanly(left) {
      forall j: nat | j < |left| ensures !OccursAt(body, " == ", j) {
        SameWindow(left, right, j);
      }
      assert k == |left|;
      assert body[..k] == left;
      assert body[k + 4..] == right;
    } else {
      var j: nat :| j < |left| && OccursAt(left + " ==", " == ", j);
      SameWindow(left, right, j);
      assert 0 <= k <= j;
      assert |body[..k]| != |left|;
    }
  }

  /** A " == " starting inside `left` lies within `left + " =="`. */
  lemma SameWindow(left: string, right: string, j: nat)
    requires j < |left|
    ensures OccursAt(left + " == " + right, " == ", j) <==> OccursAt(left + " ==", " == ", j)
  {
    var b := left + " == " + right;
    var a := left + " ==";
    assert a[j..j + 4] == b[j..j + 4];
  }

  /** In particular every left side without an `=` splits cleanly. */
  lemma EqualsFreeSplitsCleanly(left: string)
    requires '=' !in left
    ensures SplitsCleanly(left)
  {
    forall j: nat | j < |left| ensures !OccursAt(left + " ==", " == ", j) {
      var a := left + " ==";
      if j + 1 < |left| {
        assert a[j..j + 4][1] == left[j + 1] != '=';
      } else {
        assert a[j..j + 4][1] == ' ';
      }
    }
  }

  /** A left side such as `candidate ("a=b")`, with an `=` inside a
      quoted argument, also splits cleanly. */
  lemma QuotedEqualsSplitsCleanly(f: string, a: string, b: string)
    requires '=' !in f && '=' !in a && '=' !in b
    ensures SplitsCleanly(f + " (\"" + a + "=" + b + "\")")
    ensures '=' in f + " (\"" + a + "=" + b + "\")"
  {
    var left := f + " (\"" + a + "=" + b + "\")";
    var p := |f| + 3 + |a|;
    assert left[p] == '=';
    assert left[p + 1] != '=' by {
      if |b| > 0 { assert left[p + 1] == b[0]; } else { assert left[p + 1] == '"'; }
    }
    forall k | 0 <= k < |left| && k != p ensures left[k] != '=' {
      if k < |f| { assert left[k] == f[k]; }
      else if k < |f| + 3 { }
      else if k < p { assert left[k] == a[k - |f| - 3]; }
      else if k < p + 1 + |b| { assert left[k] == b[k - p - 1]; }
    }
    forall j: nat | j < |left| ensures !OccursAt(left + " ==", " == ", j) {
      var w := left + " ==";
      if j + 1 < |left| {
        assert w[j + 1] == left[j + 1];
        if j + 1 == p {
          assert w[j + 2] == left[p + 1];
        }
      } else {
        assert w[j + 1] == ' ';
      }
    }
  }

  /** One equality the generated test program asserts. */
  datatype Check = Check(left: string, right: string)

  /** The lines of the whole test program for `entryPoint` and `checks`. */
  function TestProgram(entryPoint: string, checks: seq<Check>): (lines: seq<string>)
    ensures |lines| == |checks| + 3
  {
    PrefixLines(entryPoint)
    + seq(|checks|, i requires 0 <= i < |checks| => DeepEquality(checks[i].left, checks[i].right))
    + SuffixLines()
  }

  predicate NewlineFree(checks: seq<Check>) {
    forall i :: 0 <= i < |checks| ==> '\n' !in checks[i].left && '\n' !in checks[i].right
  }

  /** Joined with newlines, the program splits back into exactly its lines
      when nothing it embeds holds a newline: one line per check, between
      the two opening lines and the closing one. */
  lemma ProgramLines(entryPoint: string, checks: seq<Check>)
    requires '\n' !in entryPoint && NewlineFree(checks)
    ensures Split(Join("\n", TestProgram(entryPoint, checks)), '\n') == TestProgram(entryPoint, checks)
  {
    var lines := TestProgram(entryPoint, checks);
    forall i | 0 <= i < |lines| ensures '\n' !in lines[i] {
      if 2 <= i < |checks| + 2 {
        assert lines[i] == "   && " + checks[i - 2].left + " == " + checks[i - 2].right;
      }
    }
    SplitJoin(lines, '\n');
  }

  /** Every check can be read back from its own line of the program. */
  lemma ProgramChecks(entryPoint: string, checks: seq<Check>, i: int)
    requires 0 <= i < |checks|
    requires SplitsCleanly(checks[i].left)
    ensures ParseCheck(TestProgram(entryPoint, checks)[i + 2]) == Some((checks[i].left, checks[i].right))
  {
    assert TestProgram(entryPoint, checks)[i + 2] == DeepEquality(checks[i].left, checks[i].right);
    ParseCheckRoundTrip(checks[i].left, checks[i].right);
  }
}

=== FILE: literals.dfy ===
/** Rendering Python literal values and identifiers as Haskell text:
    `fix_float`, `gen_literal`, `gen_var` and the reserved-word list. */
module Literals {
  import opened Results
  import opened Strings

  /** A Python constant as it reaches `gen_literal`. Integers and floats
      arrive as the text Python's `repr` gives them. */
  datatype Literal =
    | BoolLit(b: bool)
    | IntLit(repr: string)
    | FloatLit(repr: string)
    | StrLit(s: string)
    | NoneLit

  /** Adds the digit Haskell needs beside a bare decimal point: a leading
      `0` when the text starts with `.`, otherwise a trailing `0` when it
      ends with `.`; at most one of the two per call. */
  function FixFloat(s: string): (r: string)
    ensures r == s || r == "0" + s || r == s + "0"
    ensures !StartsWith(r, ".")
    ensures EndsWith(r, ".") <==> StartsWith(s, ".") && EndsWith(s, ".")
    ensures !StartsWith(s, ".") && !EndsWith(s, ".") ==> r == s
  {
    if StartsWith(s, ".") then "0" + s
    else if EndsWith(s, ".") then s + "0"
    else s
  }

  /** Examples of the fix, one per branch. */
  lemma FixFloatExamples()
    ensures FixFloat(".5") == "0.5"
    ensures FixFloat("5.") == "5.0"
    ensures FixFloat("5.5") == "5.5"
    ensures FixFloat(".") == "0."
  {
    assert StartsWith(".5", ".");
    assert "5."[..1] == "5" && "5."[1..] == ".";
    assert !StartsWith("5.5", ".") && !EndsWith("5.5", ".");
    assert StartsWith(".", ".");
  }

  /** Fixing twice changes nothing more exactly when the text does not both
      start and end with a point (as "." does). */
  lemma FixFloatIdempotent(s: string)
    ensures FixFloat(FixFloat(s)) == FixFloat(s) <==> !(StartsWith(s, ".") && EndsWith(s, "."))
  {
    var r := FixFloat(s);
    if StartsWith(s, ".") && EndsWith(s, ".") {
      assert FixFloat(r) == r + "0";
      assert |FixFloat(r)| != |r|;
    }
  }

  /** One character as the string escaping leaves it: a newline becomes the
      two characters `\n`, a double quote `\"`, anything else stays. */
  function EscapeChar(c: char): string {
    if c == '\n' then "\\n" else if c == '"' then "\\\"" else [c]
  }

  function EscapeEach(s: string): (r: string)
    ensures '\n' !in r
  {
    if |s| == 0 then "" else EscapeChar(s[0]) + EscapeEach(s[1..])
  }

  lemma {:induction false} EscapeEachAppend(x: string, y: string)
    ensures EscapeEach(x + y) == EscapeEach(x) + EscapeEach(y)
    decreases |x|
  {
    if |x| > 0 {
      assert (x + y)[1..] == x[1..] + y;
      EscapeEachAppend(x[1..], y);
    } else {
      assert x + y == y;
    }
  }

  /** Text without newlines or double quotes escapes to itself. */
  lemma {:induction false} EscapeEachPlain(s: string)
    requires '\n' !in s && '"' !in s
    ensures EscapeEach(s) == s
    decreases |s|
  {
    if |s| > 0 {
      assert s[0] in s;
      EscapeEachPlain(s[1..]);
      assert s == [s[0]] + s[1..];
    }
  }

  /** The source's escaping: replace newlines, then double quotes.
      Backslashes are left as they are. */
  function Escape(s: string): string {
    Replace(Replace(s, '\n', "\\n"), '"', "\\\"")
  }

  lemma {:induction false} ReplaceAppend(x: string, y: string, c: char, r: string)
    ensures Replace(x + y, c, r) == Replace(x, c, r) + Replace(y, c, r)
    decreases |x|
  {
    if |x| > 0 {
      assert (x + y)[0] == x[0];
      assert (x + y)[1..] == x[1..] + y;
      ReplaceAppend(x[1..], y, c, r);
      var h := if x[0] == c then r else [x[0]];
      assert Replace(x, c, r) == h + Replace(x[1..], c, r);
      assert Replace(x + y, c, r) == h + Replace(x[1..] + y, c, r);
    } else {
      assert x + y == y;
    }
  }

  lemma {:induction false} ReplaceWithout(s: string, c: char, r: string)
    requires c !in s
    ensures Replace(s, c, r) == s
    decreases |s|
  {
    if |s| > 0 {
      ReplaceWithout(s[1..], c, r);
    }
  }

  /** The two replacements do not interfere: no quote is introduced by the
      first, no newline by the second, so nothing is escaped twice. */
  lemma {:induction false} EscapeIsPerCharacter(s: string)
    ensures Escape(s) == EscapeEach(s)
    decreases |s|
  {
    if |s| > 0 {
      var head := if s[0] == '\n' then "\\n" else [s[0]];
      var rest := Replace(s[1..], '\n', "\\n");
      assert Replace(s, '\n', "\\n") == head + rest;
      ReplaceAppend(head, rest, '"', "\\\"");
      if s[0] == '\n' {
        ReplaceWithout(head, '"', "\\\"");
      } else {
        assert Replace(head, '"', "\\\"") == (if s[0] == '"' then "\\\"" else [s[0]]);
      }
      EscapeIsPerCharacter(s[1..]);
    }
  }

  /** Reads the body of a Haskell string literal, decoding the escapes `\n`,
      `\"` and `\\`; any other escape, a trailing backslash or a raw double
      quote is rejected. */
  function Unescape(t: string): Option<string>
    decreases |t|
  {
    if |t| == 0 then Some("")
    else if t[0] == '"' then None
    else if t[0] != '\\' then
      match Unescape(t[1..])
      case None => None
      case Some(rest) => Some([t[0]] + rest)
    else if |t| < 2 then None
    else
      var c := if t[1] == 'n' then Some('\n') else if t[1] == '"' || t[1] == '\\' then Some(t[1]) else None;
      match c
      case None => None
      case Some(ch) =>
        match Unescape(t[2..])
        case None => None
        case Some(rest) => Some([ch] + rest)
  }

  /** For text without backslashes the escaping is undone exactly. */
  lemma {:induction false} UnescapeEscape(s: string)
    requires '\\' !in s
    ensures Unescape(Escape(s)) == Some(s)
  {
    EscapeIsPerCharacter(s);
    UnescapeEscapeEach(s);
  }

  lemma {:induction false} UnescapeEscapeEach(s: string)
    requires '\\' !in s
    ensures Unescape(EscapeEach(s)) == Some(s)
    decreases |s|
  {
    if |s| > 0 {
      var t := EscapeEach(s);
      var rest := EscapeEach(s[1..]);
      assert t == EscapeChar(s[0]) + rest;
      UnescapeEscapeEach(s[1..]);
      if s[0] == '\n' || s[0] == '"' {
        assert t[0] == '\\' && t[2..] == rest;
      } else {
        assert t[0] == s[0] && t[1..] == rest;
      }
      assert s == [s[0]] + s[1..];
    }
  }

  /** Backslashes are not escaped, so a text holding a backslash and `n`
      renders exactly like a text holding a newline. */
  lemma EscapeCollision()
    ensures Escape("\\n") == Escape("\n")
    ensures "\\n" != "\n"
  {
    EscapeIsPerCharacter("\\n");
    EscapeIsPerCharacter("\n");
    assert EscapeEach("\\n") == EscapeChar('\\') + EscapeEach("n");
    assert EscapeEach("n") == EscapeChar('n') + EscapeEach("");
  }

  /** A constant as Haskell source text. Only floats and strings are
      rewritten; `None` falls through to Python's `repr` and stays `None`,
      which coercion to an `Optional` type later turns into `Nothing`. */
  function GenLiteral(c: Literal): (r: string)
    ensures c.StrLit? ==> '\n' !in r
    // Only newlines and double quotes are escaped; a backslash is kept as is.
    ensures c.StrLit? ==> r == "\"" + EscapeEach(c.s) + "\""
    ensures c.FloatLit? ==> r == FixFloat(c.repr)
    ensures c.IntLit? ==> r == c.repr
    ensures c.BoolLit? ==> r == (if c.b then "True" else "False")
    ensures c.NoneLit? ==> r == "None"
  {
    match c
    case FloatLit(repr) => FixFloat(repr)
    case StrLit(s) =>
      EscapeIsPerCharacter(s);
      "\"" + Escape(s) + "\""
    case IntLit(repr) => repr
    // `type(c) == None` never holds, so None and booleans reach `repr`.
    case NoneLit => "None"
    case BoolLit(b) => if b then "True" else "False"
  }

  /** A backslash in a string reaches the literal unescaped. */
  lemma BackslashKept(a: string, b: string)
    requires '\n' !in a && '"' !in a && '\n' !in b && '"' !in b
    ensures GenLiteral(StrLit(a + "\\" + b)) == "\"" + a + "\\" + b + "\""
  {
    BackslashEscapesToItself(a, b);
  }

  lemma BackslashEscapesToItself(a: string, b: string)
    requires '\n' !in a && '"' !in a && '\n' !in b && '"' !in b
    ensures EscapeEach(a + "\\" + b) == a + "\\" + b
  {
    EscapeEachPlain(a);
    EscapeEachPlain(b);
    assert EscapeEach("\\") == "\\" by {
      assert EscapeEach("\\") == EscapeChar('\\') + EscapeEach("\\"[1..]);
      assert "\\"[1..] == "";
    }
    EscapeEachAppend("\\", b);
    assert a + "\\" + b == a + ("\\" + b);
    EscapeEachAppend(a, "\\" + b);
  }

  /** A string literal is its escaped text in double quotes, and for text
      without backslashes the quoted body reads back as the original. */
  lemma StringLiteralReadsBack(s: string)
    requires '\\' !in s
    ensures var r := GenLiteral(StrLit(s));
      |r| >= 2 && r[0] == '"' && r[|r| - 1] == '"' && Unescape(r[1..|r| - 1]) == Some(s)
  {
    var r := GenLiteral(StrLit(s));
    assert r[1..|r| - 1] == Escape(s);
    UnescapeEscape(s);
  }

  /** The words Haskell reserves, as the source lists them. */
  const Keywords: seq<string> := [
    "if", "then", "else", "let", "in", "do", "mdu", "rec", "import", "module",
    "type", "class", "instance", "data", "newtype", "where", "case", "of",
    "forall", "as", "qualified", "hiding", "deriving", "family", "default",
    "infix", "infixr", "infixl", "foreign", "proc"]

  function GenVar(v: string): (r: string)
    ensures v in Keywords ==> r == v + "'"
    ensures v !in Keywords ==> r == v
    ensures r !in Keywords
  {
    if v in Keywords then
      KeywordsHaveNoPrime();
      assert (v + "'")[|v|] == '\'';
      v + "'"
    else v
  }

  lemma KeywordsHaveNoPrime()
    ensures forall i :: 0 <= i < |Keywords| ==> '\'' !in Keywords[i]
  {
  }

  /** Renaming never merges two Python identifiers (which cannot contain a
      prime); with primes allowed it can. */
  lemma GenVarInjective(a: string, b: string)
    requires '\'' !in a && '\'' !in b
    requires GenVar(a) == GenVar(b)
    ensures a == b
  {
    if a in Keywords && b in Keywords {
      assert a == (a + "'")[..|a|];
      assert b == (b + "'")[..|b|];
    }
  }

  lemma GenVarCollision()
    ensures GenVar("if") == GenVar("if'") && "if" != "if'"
  {
    assert "if" in Keywords;
    KeywordsHaveNoPrime();
    assert "if'" !in Keywords by {
      assert "if'"[2] == '\'';
    }
  }
}

=== FILE: results.dfy ===
/** Failure-compatible wrappers used across the model: the source raises
    exceptions for unsupported shapes, which the model returns as values. */
module Results {

  datatype Option<+T> = None | Some(value: T)

  /** Either a computed value or the reason the source would have raised. */
  datatype Result<+T, +E> = Ok(value: T) | Fail(error: E) {

    predicate IsFailure() {
      Fail?
    }

    function PropagateFailure<U>(): Result<U, E>
      requires Fail?
    {
      Fail(error)
    }

    function Extract(): T
      requires Ok?
    {
      value
    }
  }
}

=== FILE: stop_tokens.dfy ===
/** Cutting a model's decoded completion at the earliest stop token. */
module StopTokens {
  import opened Strings

  /** The source's loop: starting from `m`, lower the cut to the first
      occurrence of each token in turn whenever that occurrence is earlier. */
  function MinStopIndex(s: string, tokens: seq<string>, m: nat): (r: nat)
    requires m <= |s|
    ensures r <= m
    ensures forall i :: 0 <= i < |tokens| && Find(s, tokens[i]) != -1 ==> r <= Find(s, tokens[i])
    ensures r == m || exists i :: 0 <= i < |tokens| && Find(s, tokens[i]) == r
    decreases |tokens|
  {
    if |tokens| == 0 then m
    else
      var idx := Find(s, tokens[0]);
      var next := if idx != -1 && idx < m then idx else m;
      var r := MinStopIndex(s, tokens[1..], next);
      assert forall i :: 1 <= i < |tokens| ==> tokens[i] == tokens[1..][i - 1];
      assert r != next ==> exists i :: 1 <= i < |tokens| && Find(s, tokens[i]) == r by {
        if r != next {
          var j :| 0 <= j < |tokens[1..]| && Find(s, tokens[1..][j]) == r;
          assert Find(s, tokens[j + 1]) == r;
        }
      }
      r
  }

  /** The completion up to, not including, the earliest occurrence of any
      stop token; the whole completion when none occurs. */
  function StopAtStopToken(decoded: string, stopTokens: seq<string>): (r: string)
    ensures StartsWith(decoded, r)
    ensures forall i :: 0 <= i < |stopTokens| && Find(decoded, stopTokens[i]) != -1 ==>
      |r| <= Find(decoded, stopTokens[i])
    ensures r == decoded || exists i :: 0 <= i < |stopTokens| && Find(decoded, stopTokens[i]) == |r|
    ensures (forall i :: 0 <= i < |stopTokens| ==> !Contains(decoded, stopTokens[i])) ==> r == decoded
  {
    var k := MinStopIndex(decoded, stopTokens, |decoded|);
    assert decoded[..k][..k] == decoded[..k];
    decoded[..k]
  }

  /** When some stop token occurs, the result ends exactly where the
      earliest first occurrence among them begins. */
  lemma CutAtEarliestOccurrence(decoded: string, stopTokens: seq<string>, i: int)
    requires 0 <= i < |stopTokens| && Contains(decoded, stopTokens[i])
    ensures var r := StopAtStopToken(decoded, stopTokens);
      |r| <= Find(decoded, stopTokens[i])
      && exists j :: 0 <= j < |stopTokens| && Find(decoded, stopTokens[j]) == |r|
  {
    var r := StopAtStopToken(decoded, stopTokens);
    if r == decoded {
      assert Find(decoded, stopTokens[i]) == |r|;
    }
  }

  /** No non-empty stop token survives in the result. */
  lemma NoStopTokenRemains(decoded: string, stopTokens: seq<string>)
    ensures var r := StopAtStopToken(decoded, stopTokens);
      forall i :: 0 <= i < |stopTokens| && stopTokens[i] != "" ==> !Contains(r, stopTokens[i])
  {
    var r := StopAtStopToken(decoded, stopTokens);
    forall i | 0 <= i < |stopTokens| && stopTokens[i] != "" ensures !Contains(r, stopTokens[i]) {
      var t := stopTokens[i];
      forall j: nat ensures !OccursAt(r, t, j) {
        OccurrenceInPrefix(decoded, |r|, t, j);
      }
    }
  }

  /** An occurrence inside a prefix is an occurrence in the whole text, and
      a non-empty one starts before the prefix ends; so it cannot lie
      inside a prefix no longer than the first occurrence. */
  lemma OccurrenceInPrefix(s: string, k: nat, t: string, j: nat)
    requires k <= |s| && t != ""
    requires Find(s, t) != -1 ==> k <= Find(s, t)
    ensures !OccursAt(s[..k], t, j)
  {
    var p := s[..k];
    if j + |t| <= |p| {
      assert p[j..j + |t|] == s[j..j + |t|];
      assert OccursAt(p, t, j) ==> OccursAt(s, t, j);
      assert OccursAt(s, t, j) ==> Find(s, t) != -1 && Find(s, t) <= j;
    }
  }

  /** Cutting a second time changes nothing. */
  lemma StopIdempotent(decoded: string, stopTokens: seq<string>)
    ensures StopAtStopToken(StopAtStopToken(decoded, stopTokens), stopTokens) == StopAtStopToken(decoded, stopTokens)
  {
    var r := StopAtStopToken(decoded, stopTokens);
    if exists i :: 0 <= i < |stopTokens| && stopTokens[i] == "" {
      var i :| 0 <= i < |stopTokens| && stopTokens[i] == "";
      assert OccursAt(decoded, "", 0);
      assert Find(decoded, "") == 0;
      assert r == "";
      assert OccursAt(r, "", 0);
    } else {
      NoStopTokenRemains(decoded, stopTokens);
    }
  }

  /** Only which tokens are listed matters, not their order or repetition. */
  lemma StopOrderIrrelevant(decoded: string, t1: seq<string>, t2: seq<string>)
    requires forall t :: t in t1 <==> t in t2
    ensures StopAtStopToken(decoded, t1) == StopAtStopToken(decoded, t2)
  {
    MoreTokensCutEarlier(decoded, t1, t2);
    MoreTokensCutEarlier(decoded, t2, t1);
    var r1 := StopAtStopToken(decoded, t1);
    var r2 := StopAtStopToken(decoded, t2);
    assert r1 == decoded[..|r1|];
    assert r2 == decoded[..|r2|];
  }

  /** Listing more tokens can only cut earlier. */
  lemma MoreTokensCutEarlier(decoded: string, fewer: seq<string>, more: seq<string>)
    requires forall t :: t in fewer ==> t in more
    ensures |StopAtStopToken(decoded, more)| <= |StopAtStopToken(decoded, fewer)|
  {
    var r := StopAtStopToken(decoded, fewer);
    if r != decoded {
      var i :| 0 <= i < |fewer| && Find(decoded, fewer[i]) == |r|;
      assert fewer[i] in more;
    }
  }
}

=== FILE: strings.dfy ===
/** The handful of Python string operations the translator relies on:
    `sep.join`, `str.split` on one character, `str.replace` of one character,
    `str.startswith` and `str.find`, each with the facts the rest of the
    model needs about them. */
module Strings {

  predicate StartsWith(s: string, p: string) {
    |p| <= |s| && s[..|p|] == p
  }

  predicate EndsWith(s: string, p: string) {
    |p| <= |s| && s[|s| - |p|..] == p
  }

  /** `t` occurs in `s` starting at index `i`. */
  predicate OccursAt(s: string, t: string, i: nat) {
    i + |t| <= |s| && s[i..i + |t|] == t
  }

  /** Python's `t in s` for strings: `t` is a substring of `s`. */
  ghost predicate Contains(s: string, t: string) {
    exists i: nat :: OccursAt(s, t, i)
  }

  function FindFrom(s: string, t: string, i: nat): (r: int)
    requires i <= |s|
    decreases |s| - i
    ensures r == -1 ==> forall j: nat :: i <= j ==> !OccursAt(s, t, j)
    ensures r != -1 ==> i <= r && OccursAt(s, t, r)
    ensures r != -1 ==> forall j: nat :: i <= j < r ==> !OccursAt(s, t, j)
  {
    if i + |t| > |s| then -1
    else if s[i..i + |t|] == t then i
    else FindFrom(s, t, i + 1)
  }

  /** Python's `s.find(t)`: the index of the first occurrence of `t` in `s`,
      or -1 when there is none. The empty string occurs at index 0. */
  function Find(s: string, t: string): (r: int)
    ensures -1 <= r <= |s|
    ensures r == -1 <==> !Contains(s, t)
    ensures r != -1 ==> OccursAt(s, t, r)
    ensures r != -1 ==> forall j: nat :: j < r ==> !OccursAt(s, t, j)
  {
    FindFrom(s, t, 0)
  }

  /** Python's `sep.join(parts)`. */
  function Join(sep: string, parts: seq<string>): string {
    if |parts| == 0 then ""
    else if |parts| == 1 then parts[0]
    else parts[0] + sep + Join(sep, parts[1..])
  }

  /** Python's `s.replace(c, r)` for a one-character `c`: every `c` becomes `r`. */
  function Replace(s: string, c: char, r: string): string {
    if |s| == 0 then ""
    else (if s[0] == c then r else [s[0]]) + Replace(s[1..], c, r)
  }

  /** Python's `s.split(c)` for a one-character `c`: the maximal pieces of
      `s` between occurrences of `c`; the empty string splits into `[""]`. */
  function Split(s: string, c: char): (parts: seq<string>)
    ensures |parts| >= 1
    ensures forall i :: 0 <= i < |parts| ==> c !in parts[i]
    ensures Join([c], parts) == s
  {
    if |s| == 0 then [""]
    else
      var rest := Split(s[1..], c);
      if s[0] == c then
        [""] + rest
      else
        JoinConsFirst([c], [s[0]], rest);
        [[s[0]] + rest[0]] + rest[1..]
  }

  /** Prepends `p` to every string of `parts`. */
  function PrefixAll(p: string, parts: seq<string>): (r: seq<string>)
    ensures |r| == |parts|
    ensures forall i :: 0 <= i < |parts| ==> r[i] == p + parts[i]
  {
    if |parts| == 0 then [] else [p + parts[0]] + PrefixAll(p, parts[1..])
  }

  /** Glueing text onto the first piece glues it onto the whole join. */
  lemma {:induction false} JoinConsFirst(sep: string, x: string, parts: seq<string>)
    requires |parts| >= 1
    ensures Join(sep, [x + parts[0]] + parts[1..]) == x + Join(sep, parts)
  {
    var q := [x + parts[0]] + parts[1..];
    assert q[1..] == parts[1..];
    if |parts| > 1 {
      assert Join(sep, q) == q[0] + sep + Join(sep, q[1..]);
    }
  }

  /** Joining two non-empty lists is joining their joins. */
  lemma {:induction false} JoinAppend(sep: string, a: seq<string>, b: seq<string>)
    requires |a| >= 1 && |b| >= 1
    ensures Join(sep, a + b) == Join(sep, a) + sep + Join(sep, b)
    decreases |a|
  {
    if |a| == 1 {
      assert (a + b)[1..] == b;
    } else {
      assert (a + b)[1..] == a[1..] + b;
      JoinAppend(sep, a[1..], b);
    }
  }

  /** Appending one more piece adds the separator and the piece. */
  lemma JoinSnoc(sep: string, a: seq<string>, x: string)
    requires |a| >= 1
    ensures Join(sep, a + [x]) == Join(sep, a) + sep + x
  {
    JoinAppend(sep, a, [x]);
  }

  /** A join avoids a character that neither the separator nor any piece contains. */
  lemma {:induction false} JoinAvoids(sep: string, parts: seq<string>, c: char)
    requires c !in sep
    requires forall i :: 0 <= i < |parts| ==> c !in parts[i]
    ensures c !in Join(sep, parts)
    decreases |parts|
  {
    if |parts| > 1 {
      JoinAvoids(sep, parts[1..], c);
    }
  }

  /** A string without the separator is a single piece. */
  lemma {:induction false} SplitWithout(s: string, c: char)
    requires c !in s
    ensures Split(s, c) == [s]
    decreases |s|
  {
    if |s| > 0 {
      SplitWithout(s[1..], c);
    }
  }

  /** Splitting distributes over a separator occurrence. */
  lemma {:induction false} SplitConcat(x: string, y: string, c: char)
    ensures Split(x + [c] + y, c) == Split(x, c) + Split(y, c)
    decreases |x|
  {
    if |x| == 0 {
      assert x + [c] + y == [c] + y;
      assert ([c] + y)[1..] == y;
    } else {
      assert (x + [c] + y)[1..] == x[1..] + [c] + y;
      SplitConcat(x[1..], y, c);
    }
  }

  /** Split then join with `sep` is replacing each separator by `sep`. */
  lemma {:induction false} JoinSplitIsReplace(s: string, c: char, sep: string)
    ensures Join(sep, Split(s, c)) == Replace(s, c, sep)
    decreases |s|
  {
    if |s| > 0 {
      var rest := Split(s[1..], c);
      JoinSplitIsReplace(s[1..], c, sep);
      if s[0] == c {
        assert Split(s, c) == [""] + rest;
        assert ([""] + rest)[1..] == rest;
      } else {
        JoinConsFirst(sep, [s[0]], rest);
      }
    }
  }

  /** Joining pieces free of `c` with `[c]` and splitting on `c` gives the pieces back. */
  lemma {:induction false} SplitJoin(parts: seq<string>, c: char)
    requires |parts| >= 1
    requires forall i :: 0 <= i < |parts| ==> c !in parts[i]
    ensures Split(Join([c], parts), c) == parts
    decreases |parts|
  {
    if |parts| == 1 {
      SplitWithout(parts[0], c);
    } else {
      SplitJoin(parts[1..], c);
      SplitWithout(parts[0], c);
      SplitConcat(parts[0], Join([c], parts[1..]), c);
      assert parts == [parts[0]] + parts[1..];
    }
  }

  /** Replacing each `c` by `c` followed by `p`, after an initial `q`, puts
      `q` at the head of the first piece and `p` at the head of every other. */
  lemma {:induction false} SplitReplaceHeads(q: string, p: string, s: string, c: char)
    requires c !in q && c !in p
    ensures Split(q + Replace(s, c, [c] + p), c)
         == [q + Split(s, c)[0]] + PrefixAll(p, Split(s, c)[1..])
    decreases |s|
  {
    if |s| == 0 {
      assert q + Replace(s, c, [c] + p) == q;
      SplitWithout(q, c);
    } else if s[0] == c {
      SplitReplaceHeads(p, p, s[1..], c);
      ReplaceHeadsAtSeparator(q, p, s, c);
    } else {
      SplitReplaceHeads(q + [s[0]], p, s[1..], c);
      ReplaceHeadsAtOther(q, p, s, c);
    }
  }

  lemma Regroup3(a: string, b: string, e: string)
    ensures a + (b + e) == a + b + e
  {
  }

  lemma Regroup4(a: string, b: string, d: string, e: string)
    ensures a + (b + d + e) == a + b + d + e
  {
  }

  lemma Regroup(a: string, b: string, d: string, e: string)
    ensures a + (b + d + e) == a + b + (d + e)
  {
  }

  /** The step of SplitReplaceHeads when `s` starts with the separator. */
  lemma ReplaceHeadsAtSeparator(q: string, p: string, s: string, c: char)
    requires c !in q && c !in p && |s| > 0 && s[0] == c
    requires Split(p + Replace(s[1..], c, [c] + p), c)
          == [p + Split(s[1..], c)[0]] + PrefixAll(p, Split(s[1..], c)[1..])
    ensures Split(q + Replace(s, c, [c] + p), c)
         == [q + Split(s, c)[0]] + PrefixAll(p, Split(s, c)[1..])
  {
    var r := [c] + p;
    var rest := Split(s[1..], c);
    var y := Replace(s[1..], c, r);
    var x := p + y;
    assert Replace(s, c, r) == r + y;
    Regroup(q, [c], p, y);
    SplitConcat(q, x, c);
    SplitWithout(q, c);
    assert PrefixAll(p, rest) == [p + rest[0]] + PrefixAll(p, rest[1..]);
    assert Split(s, c) == [""] + rest;
    assert Split(s, c)[1..] == rest;
    assert q + Split(s, c)[0] == q;
  }

  /** The step of SplitReplaceHeads when `s` starts with another character. */
  lemma ReplaceHeadsAtOther(q: string, p: string, s: string, c: char)
    requires c !in q && c !in p && |s| > 0 && s[0] != c
    requires Split((q + [s[0]]) + Replace(s[1..], c, [c] + p), c)
          == [(q + [s[0]]) + Split(s[1..], c)[0]] + PrefixAll(p, Split(s[1..], c)[1..])
    ensures Split(q + Replace(s, c, [c] + p), c)
         == [q + Split(s, c)[0]] + PrefixAll(p, Split(s, c)[1..])
  {
    var r := [c] + p;
    var y := Replace(s[1..], c, r);
    assert Replace(s, c, r) == [s[0]] + y;
    Regroup3(q, [s[0]], y);
    var rest := Split(s[1..], c);
    assert Split(s, c) == [[s[0]] + rest[0]] + rest[1..];
    Regroup3(q, [s[0]], rest[0]);
    var pieces := Split(q + Replace(s, c, r), c);
    assert pieces == Split((q + [s[0]]) + y, c);
    assert pieces == [q + ([s[0]] + rest[0])] + PrefixAll(p, rest[1..]);
  }

  /** Replacing each `c` by `c` followed by `p`, after an initial `p`, puts `p`
      at the head of every piece. */
  lemma SplitPrefixedReplace(p: string, s: string, c: char)
    requires c !in p
    ensures Split(p + Replace(s, c, [c] + p), c) == PrefixAll(p, Split(s, c))
  {
    SplitReplaceHeads(p, p, s, c);
    var pieces := Split(s, c);
    assert pieces == [pieces[0]] + pieces[1..];
  }

  /** Joining with a separator that starts with `c` is joining with `c`
      alone after moving the rest of the separator onto the later pieces. */
  lemma {:induction false} JoinLongSeparator(c: char, p: string, parts: seq<string>)
    requires |parts| >= 1
    ensures Join([c] + p, parts) == Join([c], [parts[0]] + PrefixAll(p, parts[1..]))
    decreases |parts|
  {
    var sep := [c] + p;
    if |parts| >= 2 {
      var rest := parts[1..];
      JoinLongSeparator(c, p, rest);
      assert rest[1..] == parts[2..];
      var tail := [rest[0]] + PrefixAll(p, rest[1..]);
      JoinConsFirst([c], p, tail);
      assert [p + tail[0]] + tail[1..] == PrefixAll(p, rest);
      var q := [parts[0]] + PrefixAll(p, rest);
      assert q[1..] == PrefixAll(p, rest);
      assert Join([c], q) == parts[0] + [c] + Join([c], PrefixAll(p, rest));
      assert Join(sep, parts) == parts[0] + sep + Join(sep, rest);
    } else {
      assert [parts[0]] + PrefixAll(p, parts[1..]) == [parts[0]];
    }
  }
}

=== FILE: type_parser.dfy ===
/** A reader for the Haskell type text `translate_type` produces, used to
    show that the translation loses nothing: every supported annotation can
    be read back from its text, so no two annotations share one. */
module TypeParser {
  import opened Results
  import opened Strings
  import opened Annotations
  import opened TypeTranslation

  /** Reads one of the four scalar type names off the front of `s`. */
  function ParsePrimitive(s: string): (r: Option<(string, string)>)
    ensures r.Some? ==> |r.value.1| < |s|
  {
    if |s| == 0 then None
    else if s[0] == 'I' then (if StartsWith(s, "Int") then Some(("int", s[3..])) else None)
    else if s[0] == 'D' then (if StartsWith(s, "Double") then Some(("float", s[6..])) else None)
    else if s[0] == 'B' then (if StartsWith(s, "Bool") then Some(("bool", s[4..])) else None)
    else if s[0] == 'S' then (if StartsWith(s, "String") then Some(("str", s[6..])) else None)
    else None
  }

  /** Reads `[(K, V)]` over two scalar names off the front of `s`. */
  function ParseDict(s: string): (r: Option<(Annotation, string)>)
    ensures r.Some? ==> |r.value.1| < |s|
  {
    if !StartsWith(s, "[(") then None
    else match ParsePrimitive(s[2..])
      case None => None
      case Some((k, afterKey)) =>
        if !StartsWith(afterKey, ", ") then None
        else match ParsePrimitive(afterKey[2..])
          case None => None
          case Some((v, afterValue)) =>
            if !StartsWith(afterValue, ")]") then None
            else Some((Subscript(Name("Dict"), TupleNode([Name(k), Name(v)])), afterValue[2..]))
  }

  /** Reads one type off the front of `s`, returning the annotation it was
      translated from and the unread remainder. The first character decides
      which kind of type is being read. */
  function ParseType(s: string): (r: Option<(Annotation, string)>)
    ensures r.Some? ==> |r.value.1| < |s|
    decreases |s|, 1
  {
    if |s| == 0 then None
    else if s[0] == 'M' then
      if !StartsWith(s, "Maybe (") then None
      else
        match ParseType(s[7..])
        case None => None
        case Some((a, rest)) =>
          if StartsWith(rest, ")") then Some((Subscript(Name("Optional"), a), rest[1..])) else None
    else if s[0] == '[' then
      match ParseDict(s)
      case Some(d) => Some(d)
      case None =>
        match ParseType(s[1..])
        case None => None
        case Some((a, rest)) =>
          if StartsWith(rest, "]") then Some((Subscript(Name("List"), a), rest[1..])) else None
    else if s[0] == '(' then
      if StartsWith(s[1..], ")") then Some((Subscript(Name("Tuple"), TupleNode([])), s[2..]))
      else
        match ParseElements(s[1..])
        case None => None
        case Some((elts, rest)) => Some((Subscript(Name("Tuple"), TupleNode(elts)), rest))
    else
      match ParsePrimitive(s)
      case None => None
      case Some((id, rest)) => Some((Name(id), rest))
  }

  /** Reads `T1 , T2 , ... , Tn)` (n >= 1) off the front of `s`. */
  function ParseElements(s: string): (r: Option<(seq<Annotation>, string)>)
    ensures r.Some? ==> |r.value.1| < |s|
    decreases |s|, 2
  {
    match ParseType(s)
    case None => None
    case Some((a, rest)) =>
      if StartsWith(rest, " , ") then
        match ParseElements(rest[3..])
        case None => None
        case Some((more, rest')) => Some(([a] + more, rest'))
      else if StartsWith(rest, ")") then Some(([a], rest[1..]))
      else None
  }

  lemma StartsWithAppend(p: string, x: string)
    ensures StartsWith(p + x, p) && (p + x)[|p|..] == x
  {
    assert (p + x)[..|p|] == p;
  }

  /** A string starting with a character other than the first of `p` does not start with `p`. */
  lemma NotStartsWith(s: string, p: string)
    requires |s| >= 1 && |p| >= 1 && s[0] != p[0]
    ensures !StartsWith(s, p)
  {
  }

  /** The join of tuple element texts is the first text followed by either
      nothing or the " , " separator. */
  lemma JoinHead(texts: seq<string>)
    requires |texts| >= 1
    ensures |texts| == 1 ==> Join(" , ", texts) == texts[0]
    ensures |texts| > 1 ==> Join(" , ", texts) == texts[0] + (" , " + Join(" , ", texts[1..]))
  {
  }

  lemma NoPrimitiveAt(s: string)
    requires |s| >= 1 && s[0] !in {'I', 'D', 'B', 'S'}
    ensures ParsePrimitive(s) == None
  {
    NotStartsWith(s, "Int");
    NotStartsWith(s, "Double");
    NotStartsWith(s, "Bool");
    NotStartsWith(s, "String");
  }

  // One reading step of ParseType per kind of text, first over an
  // arbitrary string, then over the text a translation produces.

  lemma OptionalStep(s: string)
    requires StartsWith(s, "Maybe (")
    ensures ParseType(s) == (match ParseType(s[7..])
      case None => None
      case Some((a, rest)) =>
        if StartsWith(rest, ")") then Some((Subscript(Name("Optional"), a), rest[1..])) else None)
  {
  }

  lemma ListStep(s: string)
    requires |s| >= 1 && s[0] == '[' && ParseDict(s) == None
    ensures ParseType(s) == (match ParseType(s[1..])
      case None => None
      case Some((a, rest)) =>
        if StartsWith(rest, "]") then Some((Subscript(Name("List"), a), rest[1..])) else None)
  {
  }

  lemma TupleStep(s: string)
    requires |s| >= 2 && s[0] == '(' && !StartsWith(s[1..], ")")
    ensures ParseType(s) == (match ParseElements(s[1..])
      case None => None
      case Some((elts, rest)) => Some((Subscript(Name("Tuple"), TupleNode(elts)), rest)))
  {
  }

  lemma ReadList(s: string, inner: string, rest: string, elem: Annotation)
    requires |s| >= 1 && s[0] == '[' && s[1..] == inner + "]" + rest
    requires ParseDict(s) == None
    requires ParseType(inner + "]" + rest) == Some((elem, "]" + rest))
    ensures ParseType(s) == Some((Subscript(Name("List"), elem), rest))
  {
    assert StartsWith("]" + rest, "]") && ("]" + rest)[1..] == rest by {
      StartsWithAppend("]", rest);
    }
    ListStep(s);
  }

  lemma ReadOptional(inner: string, rest: string, elem: Annotation)
    requires ParseType(inner + ")" + rest) == Some((elem, ")" + rest))
    ensures ParseType("Maybe (" + inner + ")" + rest) == Some((Subscript(Name("Optional"), elem), rest))
  {
    var s := "Maybe (" + inner + ")" + rest;
    var body := inner + ")" + rest;
    assert StartsWith(s, "Maybe (") && s[7..] == body by {
      StartsWithAppend("Maybe (", body);
      assert s == "Maybe (" + body;
    }
    OptionalStep(s);
    assert StartsWith(")" + rest, ")") && (")" + rest)[1..] == rest by {
      StartsWithAppend(")", rest);
    }
  }

  lemma ReadEmptyTuple(rest: string)
    ensures ParseType("()" + rest) == Some((Subscript(Name("Tuple"), TupleNode([])), rest))
  {
    var s := "()" + rest;
    assert s[0] == '(' && StartsWith(s[1..], ")") && s[2..] == rest by {
      StartsWithAppend("(", ")" + rest);
      assert s == "(" + (")" + rest);
      StartsWithAppend(")", rest);
    }
  }

  lemma ReadTuple(inner: string, rest: string, elts: seq<Annotation>)
    requires |inner| >= 1 && inner[0] != ')'
    requires ParseElements(inner + ")" + rest) == Some((elts, rest))
    ensures ParseType("(" + inner + ")" + rest) == Some((Subscript(Name("Tuple"), TupleNode(elts)), rest))
  {
    var s := "(" + inner + ")" + rest;
    var body := inner + ")" + rest;
    assert |s| >= 2 && s[0] == '(' && s[1..] == body && !StartsWith(body, ")") by {
      assert s == "(" + body;
      NotStartsWith(body, ")");
    }
    TupleStep(s);
  }

  lemma DictStep(s: string, k: string, afterKey: string, v: string, afterValue: string)
    requires StartsWith(s, "[(") && ParsePrimitive(s[2..]) == Some((k, afterKey))
    requires StartsWith(afterKey, ", ") && ParsePrimitive(afterKey[2..]) == Some((v, afterValue))
    requires StartsWith(afterValue, ")]")
    ensures ParseDict(s) == Some((Subscript(Name("Dict"), TupleNode([Name(k), Name(v)])), afterValue[2..]))
  {
  }

  lemma ReadDict(k: string, v: string, rest: string)
    requires IsPrimitiveName(k) && IsPrimitiveName(v)
    ensures ParseDict("[(" + PrimitiveText(k) + ", " + PrimitiveText(v) + ")]" + rest)
         == Some((Subscript(Name("Dict"), TupleNode([Name(k), Name(v)])), rest))
  {
    var kText, vText := PrimitiveText(k), PrimitiveText(v);
    var s := "[(" + kText + ", " + vText + ")]" + rest;
    var afterValue := ")]" + rest;
    var afterKey := ", " + (vText + afterValue);
    assert StartsWith(s, "[(") && s[2..] == kText + afterKey by {
      assert s == "[(" + (kText + afterKey);
      StartsWithAppend("[(", kText + afterKey);
    }
    assert ParsePrimitive(s[2..]) == Some((k, afterKey)) by {
      ReadPrimitive(k, afterKey);
    }
    assert StartsWith(afterKey, ", ") && afterKey[2..] == vText + afterValue by {
      StartsWithAppend(", ", vText + afterValue);
    }
    assert ParsePrimitive(afterKey[2..]) == Some((v, afterValue)) by {
      ReadPrimitive(v, afterValue);
    }
    assert StartsWith(afterValue, ")]") && afterValue[2..] == rest by {
      StartsWithAppend(")]", rest);
    }
    DictStep(s, k, afterKey, v, afterValue);
  }

  lemma ReadDictAsType(k: string, v: string, rest: string)
    requires IsPrimitiveName(k) && IsPrimitiveName(v)
    ensures ParseType("[(" + PrimitiveText(k) + ", " + PrimitiveText(v) + ")]" + rest)
         == Some((Subscript(Name("Dict"), TupleNode([Name(k), Name(v)])), rest))
  {
    var s := "[(" + PrimitiveText(k) + ", " + PrimitiveText(v) + ")]" + rest;
    ReadDict(k, v, rest);
    NoPrimitiveAt(s);
    NotStartsWith(s, "Maybe (");
    StartsWithAppend("[", s[1..]);
    assert s == "[" + s[1..];
  }

  lemma ReadPrimitive(id: string, rest: string)
    requires IsPrimitiveName(id)
    ensures ParsePrimitive(PrimitiveText(id) + rest) == Some((id, rest))
  {
    var s := PrimitiveText(id) + rest;
    StartsWithAppend(PrimitiveText(id), rest);
    if id != "int" { NotStartsWith(s, "Int"); }
    if id != "float" { NotStartsWith(s, "Double"); }
    if id != "bool" { NotStartsWith(s, "Bool"); }
  }

  /** A translated type text begins with a scalar name exactly when the
      annotation is a bare name; otherwise it begins with `[`, `(` or `M`. */
  lemma {:induction false} PrimitiveAtHead(a: Annotation, rest: string)
    requires TranslateType(a).Ok?
    ensures var text := TranslateType(a).value.text;
      && text[0] != ')'
      && ParsePrimitive(text + rest) == (if a.Name? then Some((a.id, rest)) else None)
  {
    TextShape(a);
    var text := TranslateType(a).value.text;
    if a.Name? {
      ReadPrimitive(a.id, rest);
    } else {
      assert (text + rest)[0] == text[0];
      NoPrimitiveAt(text + rest);
    }
  }

  // The ways a list text fails to read as a dictionary.

  lemma NoDictWithoutParen(s: string)
    requires |s| >= 2 && s[1] != '('
    ensures ParseDict(s) == None
  {
  }

  lemma NoDictWithoutKeyAndComma(s: string)
    requires StartsWith(s, "[(")
    requires ParsePrimitive(s[2..]).None? || !StartsWith(ParsePrimitive(s[2..]).value.1, ", ")
    ensures ParseDict(s) == None
  {
  }

  /** After the first element of a tuple comes " , " or `)`, never ", ". */
  lemma {:induction false} NoKeyCommaInElements(elts: seq<Annotation>, tail: string)
    requires TranslateAll(elts).Ok?
    requires |tail| >= 1 && tail[0] == ')'
    ensures var head := ParsePrimitive(Join(" , ", Texts(TranslateAll(elts).value)) + tail);
      head.None? || !StartsWith(head.value.1, ", ")
  {
    var texts := Texts(TranslateAll(elts).value);
    var s := Join(" , ", texts) + tail;
    if |elts| == 0 {
      assert s == tail;
      NoPrimitiveAt(s);
    } else {
      var after := if |texts| == 1 then tail else " , " + Join(" , ", texts[1..]) + tail;
      assert s == texts[0] + after by {
        JoinHead(texts);
      }
      assert texts[0] == TranslateType(elts[0]).value.text;
      PrimitiveAtHead(elts[0], after);
      NotStartsWith(after, ", ");
    }
  }

  /** The text of a list type is never mistaken for a `Dict` type, even when
      the list holds tuples: a tuple separates its elements with " , ", a
      dictionary its key and value with ", ". */
  lemma {:induction false} ListIsNotDict(elem: Annotation, rest: string)
    requires TranslateType(elem).Ok?
    ensures ParseDict("[" + TranslateType(elem).value.text + "]" + rest) == None
  {
    if !IsGeneric(elem, "Tuple") {
      ListOfNonTupleIsNotDict(elem, rest);
    } else {
      ListOfTupleTextIsNotDict(elem, rest);
    }
  }

  lemma {:induction false} ListOfNonTupleIsNotDict(elem: Annotation, rest: string)
    requires TranslateType(elem).Ok? && !IsGeneric(elem, "Tuple")
    ensures ParseDict("[" + TranslateType(elem).value.text + "]" + rest) == None
  {
    var inner := TranslateType(elem).value.text;
    var s := "[" + inner + "]" + rest;
    TextShape(elem);
    assert |s| >= 2 && s[1] != '(' by {
      assert s[1] == inner[0];
    }
    NoDictWithoutParen(s);
  }

  lemma {:induction false} ListOfTupleTextIsNotDict(elem: Annotation, rest: string)
    requires TranslateType(elem).Ok? && IsGeneric(elem, "Tuple")
    ensures ParseDict("[" + TranslateType(elem).value.text + "]" + rest) == None
  {
    var inner := TranslateType(elem).value.text;
    var s := "[" + inner + "]" + rest;
    TextShape(elem);
    var elts := elem.slice.elts;
    var body := Join(" , ", Texts(TranslateAll(elts).value)) + (")]" + rest);
    assert StartsWith(s, "[(") && s[2..] == body by {
      assert s == "[(" + body;
      StartsWithAppend("[(", body);
    }
    ListOfTupleIsNotDict(s, elts, rest);
  }

  lemma {:induction false} ListOfTupleIsNotDict(s: string, elts: seq<Annotation>, rest: string)
    requires TranslateAll(elts).Ok?
    requires StartsWith(s, "[(") && s[2..] == Join(" , ", Texts(TranslateAll(elts).value)) + (")]" + rest)
    ensures ParseDict(s) == None
  {
    NoKeyCommaInElements(elts, ")]" + rest);
    NoDictWithoutKeyAndComma(s);
  }

  /** Reading the text of a translated annotation, followed by anything,
      gives the annotation back and leaves exactly what followed. */
  lemma {:induction false} ParseTranslated(a: Annotation, rest: string)
    requires TranslateType(a).Ok?
    ensures ParseType(TranslateType(a).value.text + rest) == Some((a, rest))
    decreases a, 1
  {
    TextShape(a);
    if a.Name? {
      ReadPrimitive(a.id, rest);
    } else if IsGeneric(a, "List") {
      ParseTranslatedList(a, rest);
    } else if IsGeneric(a, "Optional") {
      ParseTranslatedOptional(a, rest);
    } else if IsGeneric(a, "Dict") {
      ReadDictAsType(a.slice.elts[0].id, a.slice.elts[1].id, rest);
    } else {
      ParseTranslatedTuple(a, rest);
    }
  }

  lemma {:induction false} ParseTranslatedList(a: Annotation, rest: string)
    requires TranslateType(a).Ok? && IsGeneric(a, "List")
    ensures ParseType(TranslateType(a).value.text + rest) == Some((a, rest))
    decreases a, 0
  {
    var s := TranslateType(a).value.text + rest;
    assert TranslateType(a.slice).Ok? by {
      TextShape(a);
    }
    var inner := TranslateType(a.slice).value.text;
    assert ParseType(inner + "]" + rest) == Some((a.slice, "]" + rest)) by {
      ParseTranslated(a.slice, "]" + rest);
      assert inner + ("]" + rest) == inner + "]" + rest;
    }
    assert |s| >= 1 && s[0] == '[' && s[1..] == inner + "]" + rest && ParseDict(s) == None by {
      TextShape(a);
      assert s == "[" + (inner + "]" + rest);
      assert s == "[" + inner + "]" + rest;
      ListIsNotDict(a.slice, rest);
    }
    ReadList(s, inner, rest, a.slice);
  }

  lemma {:induction false} ParseTranslatedOptional(a: Annotation, rest: string)
    requires TranslateType(a).Ok? && IsGeneric(a, "Optional")
    ensures ParseType(TranslateType(a).value.text + rest) == Some((a, rest))
    decreases a, 0
  {
    TextShape(a);
    var text := TranslateType(a).value.text;
    var inner := TranslateType(a.slice).value.text;
    ParseTranslated(a.slice, ")" + rest);
    assert inner + (")" + rest) == inner + ")" + rest;
    ReadOptional(inner, rest, a.slice);
    assert text + rest == "Maybe (" + inner + ")" + rest;
  }

  lemma {:induction false} ParseTranslatedTuple(a: Annotation, rest: string)
    requires TranslateType(a).Ok? && IsGeneric(a, "Tuple")
    ensures ParseType(TranslateType(a).value.text + rest) == Some((a, rest))
    decreases a, 0
  {
    TextShape(a);
    var text := TranslateType(a).value.text;
    var elts := a.slice.elts;
    var texts := Texts(TranslateAll(elts).value);
    var inner := Join(" , ", texts);
    if |elts| == 0 {
      assert text + rest == "()" + rest;
      ReadEmptyTuple(rest);
    } else {
      ParseTranslatedElements(elts, rest);
      assert |inner| >= 1 && inner[0] != ')' by {
        JoinHead(texts);
        assert texts[0] == TranslateType(elts[0]).value.text;
        PrimitiveAtHead(elts[0], "");
        TextShape(elts[0]);
      }
      ReadTuple(inner, rest, elts);
      assert text + rest == "(" + inner + ")" + rest;
    }
  }

  /** Reading the element texts of a translated tuple, joined by " , " and
      closed by `)`, gives the elements back. */
  lemma {:induction false} ParseTranslatedElements(elts: seq<Annotation>, rest: string)
    requires |elts| >= 1 && TranslateAll(elts).Ok?
    ensures ParseElements(Join(" , ", Texts(TranslateAll(elts).value)) + ")" + rest) == Some((elts, rest))
    decreases elts, 2
  {
    var texts := Texts(TranslateAll(elts).value);
    JoinHead(texts);
    assert texts[0] == TranslateType(elts[0]).value.text;
    if |elts| == 1 {
      ParseTranslated(elts[0], ")" + rest);
      assert texts[0] + (")" + rest) == Join(" , ", texts) + ")" + rest;
      NotStartsWith(")" + rest, " , ");
      StartsWithAppend(")", rest);
      assert elts == [elts[0]];
    } else {
      var tail := Join(" , ", texts[1..]) + ")" + rest;
      assert Join(" , ", texts) + ")" + rest == texts[0] + (" , " + tail);
      ParseTranslated(elts[0], " , " + tail);
      StartsWithAppend(" , ", tail);
      assert Texts(TranslateAll(elts[1..]).value) == texts[1..];
      ParseTranslatedElements(elts[1..], rest);
      assert elts == [elts[0]] + elts[1..];
    }
  }

  /** Distinct supported annotations never translate to the same text. */
  lemma TranslationInjective(a: Annotation, b: Annotation)
    requires TranslateType(a).Ok? && TranslateType(b).Ok?
    requires TranslateType(a).value.text == TranslateType(b).value.text
    ensures a == b
  {
    ParseTranslated(a, "");
    ParseTranslated(b, "");
    assert TranslateType(a).value.text + "" == TranslateType(a).value.text;
    assert TranslateType(b).value.text + "" == TranslateType(b).value.text;
  }
}

=== FILE: type_translation.dfy ===
/** `translate_type` and `check_no_Optional`: Python type annotations to
    Haskell type text, failing on every shape outside the closed grammar.
    The module-global `needs_hashmap` flag is returned beside the text. */
module TypeTranslation {
  import opened Results
  import opened Strings
  import opened Annotations

  /** Why a translation fails; one constructor per `raise` in the source. */
  datatype TranslateError =
    | UntaggedUnion            // `Union[...]`
    | BadTuple                 // `Tuple` applied to something other than a tuple node
    | OptionalInTuple          // a top-level `Optional[...]` element of a `Tuple`
    | BadDict                  // `Dict` applied to anything but two bare names
    | BadGeneric(name: string) // any other generic name
    | ImplicitlyUntyped        // the annotation is missing
    | AnyType                  // `Any`
    | UnknownName(name: string)
    | NoEllipsis               // any constant
    | UnknownAnnotation        // any other node

  /** Haskell type text, and whether translating it met a `Dict`. */
  datatype Translated = Translated(text: string, needsHashmap: bool)

  function Texts(xs: seq<Translated>): (r: seq<string>)
    ensures |r| == |xs|
    ensures forall i :: 0 <= i < |xs| ==> r[i] == xs[i].text
  {
    seq(|xs|, i requires 0 <= i < |xs| => xs[i].text)
  }

  predicate AnyNeedsHashmap(xs: seq<Translated>) {
    exists i :: 0 <= i < |xs| && xs[i].needsHashmap
  }

  function PrimitiveText(id: string): string
    requires IsPrimitiveName(id)
  {
    if id == "int" then "Int"
    else if id == "float" then "Double"
    else if id == "bool" then "Bool"
    else "String"
  }

  /** Rejects a tuple whose elements include a top-level `Optional[...]`;
      nested ones are not inspected. */
  function CheckNoOptional(elts: seq<Annotation>): (r: Result<(), TranslateError>)
    ensures r.Fail? ==> r.error == OptionalInTuple
    ensures r.Fail? <==> exists i :: 0 <= i < |elts| && IsGeneric(elts[i], "Optional")
  {
    if |elts| == 0 then Ok(())
    else if IsGeneric(elts[0], "Optional") then Fail(OptionalInTuple)
    else
      var r := CheckNoOptional(elts[1..]);
      assert forall i :: 1 <= i < |elts| ==> elts[i] == elts[1..][i - 1];
      r
  }

  function TranslateType(t: Annotation): (r: Result<Translated, TranslateError>)
    decreases t
    ensures r.Ok? ==> '\n' !in r.value.text
  {
    match t
    case Subscript(Name(id), slice) =>
      if id == "List" then
        var x :- TranslateType(slice);
        Ok(Translated("[" + x.text + "]", x.needsHashmap))
      else if id == "Union" then
        Fail(UntaggedUnion)
      else if id == "Tuple" then
        (match slice
         case TupleNode(elts) =>
           var _ :- CheckNoOptional(elts);
           var xs :- TranslateAll(elts);
           JoinAvoids(" , ", Texts(xs), '\n');
           Ok(Translated("(" + Join(" , ", Texts(xs)) + ")", AnyNeedsHashmap(xs)))
         case _ => Fail(BadTuple))
      else if id == "Dict" then
        (match slice
         case TupleNode(elts) =>
           if |elts| == 2 && elts[0].Name? && elts[1].Name? then
             var key :- TranslateType(Name(elts[0].id));
             var value :- TranslateType(Name(elts[1].id));
             Ok(Translated("[(" + key.text + ", " + value.text + ")]", true))
           else
             Fail(BadDict)
         case _ => Fail(BadDict))
      else if id == "Optional" then
        var x :- TranslateType(slice);
        Ok(Translated("Maybe (" + x.text + ")", x.needsHashmap))
      else
        Fail(BadGeneric(id))
    case Name(id) =>
      if IsPrimitiveName(id) then Ok(Translated(PrimitiveText(id), false))
      else if id == "Any" then Fail(AnyType)
      else Fail(UnknownName(id))
    case Absent => Fail(ImplicitlyUntyped)
    // The source's `ast.Constant(Ellipsis)` binds `Ellipsis` as a capture
    // name, so every constant lands here, not only `...`.
    case Constant(_) => Fail(NoEllipsis)
    case _ => Fail(UnknownAnnotation)
  }

  /** Translates a list of annotations in order, stopping at the first failure. */
  function TranslateAll(ts: seq<Annotation>): (r: Result<seq<Translated>, TranslateError>)
    decreases ts
    ensures r.Ok? <==> forall i :: 0 <= i < |ts| ==> TranslateType(ts[i]).Ok?
    ensures r.Ok? ==> |r.value| == |ts|
    ensures r.Ok? ==> forall i :: 0 <= i < |ts| ==> r.value[i] == TranslateType(ts[i]).value
    ensures r.Fail? ==> exists i :: 0 <= i < |ts| && TranslateType(ts[i]).Fail?
                          && r.error == TranslateType(ts[i]).error
                          && forall j :: 0 <= j < i ==> TranslateType(ts[j]).Ok?
  {
    if |ts| == 0 then Ok([])
    else
      var x :- TranslateType(ts[0]);
      var xs :- TranslateAll(ts[1..]);
      assert forall i :: 1 <= i < |ts| ==> ts[i] == ts[1..][i - 1];
      Ok([x] + xs)
  }

  /** The scalar names map to their Haskell counterparts and raise no flag. */
  lemma PrimitiveShapes()
    ensures TranslateType(Name("int")) == Ok(Translated("Int", false))
    ensures TranslateType(Name("float")) == Ok(Translated("Double", false))
    ensures TranslateType(Name("bool")) == Ok(Translated("Bool", false))
    ensures TranslateType(Name("str")) == Ok(Translated("String", false))
  {
  }

  /** `List[T]` is `[T']` and `Optional[T]` is `Maybe (T')`; either fails
      exactly as `T` does. */
  lemma ListAndOptionalShapes(elem: Annotation)
    ensures TranslateType(Subscript(Name("List"), elem)).Ok? <==> TranslateType(elem).Ok?
    ensures TranslateType(Subscript(Name("Optional"), elem)).Ok? <==> TranslateType(elem).Ok?
    ensures TranslateType(elem).Ok? ==>
      var x := TranslateType(elem).value;
      && TranslateType(Subscript(Name("List"), elem)).value == Translated("[" + x.text + "]", x.needsHashmap)
      && TranslateType(Subscript(Name("Optional"), elem)).value == Translated("Maybe (" + x.text + ")", x.needsHashmap)
    ensures TranslateType(elem).Fail? ==>
      && TranslateType(Subscript(Name("List"), elem)).error == TranslateType(elem).error
      && TranslateType(Subscript(Name("Optional"), elem)).error == TranslateType(elem).error
  {
  }

  /** `Tuple[T1, ..., Tn]` succeeds exactly when its slice is a tuple node with
      no top-level `Optional` element and every element translates; the text
      joins the element texts with " , " inside parentheses. */
  lemma TupleShape(slice: Annotation)
    ensures var r := TranslateType(Subscript(Name("Tuple"), slice));
      r.Ok? <==> (&& slice.TupleNode?
                  && (forall i :: 0 <= i < |slice.elts| ==> !IsGeneric(slice.elts[i], "Optional"))
                  && (forall i :: 0 <= i < |slice.elts| ==> TranslateType(slice.elts[i]).Ok?))
    ensures !slice.TupleNode? ==> TranslateType(Subscript(Name("Tuple"), slice)) == Fail(BadTuple)
    ensures slice.TupleNode? && (exists i :: 0 <= i < |slice.elts| && IsGeneric(slice.elts[i], "Optional")) ==>
      TranslateType(Subscript(Name("Tuple"), slice)) == Fail(OptionalInTuple)
    ensures var r := TranslateType(Subscript(Name("Tuple"), slice));
      r.Ok? ==>
        var texts := seq(|slice.elts|, i requires 0 <= i < |slice.elts| => TranslateType(slice.elts[i]).value.text);
        && r.value.text == "(" + Join(" , ", texts) + ")"
        && (r.value.needsHashmap <==>
              exists i :: 0 <= i < |slice.elts| && TranslateType(slice.elts[i]).value.needsHashmap)
  {
    if slice.TupleNode? {
      var elts := slice.elts;
      var r := TranslateType(Subscript(Name("Tuple"), slice));
      if CheckNoOptional(elts).Ok? && TranslateAll(elts).Ok? {
        var xs := TranslateAll(elts).value;
        var texts := seq(|elts|, i requires 0 <= i < |elts| => TranslateType(elts[i]).value.text);
        assert Texts(xs) == texts;
      }
    }
  }

  /** `Dict[K, V]` succeeds only over two bare primitive names, and only then
      raises the flag; any other slice is `BadDict`, and an unknown name
      fails as that name does. */
  lemma DictShape(slice: Annotation)
    ensures var r := TranslateType(Subscript(Name("Dict"), slice));
      r.Ok? <==> (&& slice.TupleNode? && |slice.elts| == 2
                  && slice.elts[0].Name? && IsPrimitiveName(slice.elts[0].id)
                  && slice.elts[1].Name? && IsPrimitiveName(slice.elts[1].id))
    ensures var r := TranslateType(Subscript(Name("Dict"), slice));
      r.Ok? ==> r.value == Translated("[(" + PrimitiveText(slice.elts[0].id) + ", "
                                      + PrimitiveText(slice.elts[1].id) + ")]", true)
    ensures !(slice.TupleNode? && |slice.elts| == 2 && slice.elts[0].Name? && slice.elts[1].Name?) ==>
      TranslateType(Subscript(Name("Dict"), slice)) == Fail(BadDict)
    ensures slice.TupleNode? && |slice.elts| == 2 && slice.elts[0].Name? && slice.elts[1].Name?
            && !IsPrimitiveName(slice.elts[0].id) ==>
      TranslateType(Subscript(Name("Dict"), slice)) == TranslateType(slice.elts[0])
  {
  }

  /** Every shape outside the grammar is a failure, with the source's reason. */
  lemma UnsupportedShapes(t: Annotation)
    ensures IsGeneric(t, "Union") ==> TranslateType(t) == Fail(UntaggedUnion)
    ensures t.Subscript? && t.value.Name?
            && t.value.id !in ["List", "Union", "Tuple", "Dict", "Optional"] ==>
      TranslateType(t) == Fail(BadGeneric(t.value.id))
    ensures t.Subscript? && !t.value.Name? ==> TranslateType(t) == Fail(UnknownAnnotation)
    ensures t == Absent ==> TranslateType(t) == Fail(ImplicitlyUntyped)
    ensures t == Name("Any") ==> TranslateType(t) == Fail(AnyType)
    ensures t.Name? && t.id != "Any" && !IsPrimitiveName(t.id) ==> TranslateType(t) == Fail(UnknownName(t.id))
    ensures t.Constant? ==> TranslateType(t) == Fail(NoEllipsis)
    ensures t.TupleNode? || t == Other ==> TranslateType(t) == Fail(UnknownAnnotation)
  {
  }

  /** The translator accepts exactly the closed grammar of supported annotations. */
  lemma {:induction false} TranslateSucceedsIffSupported(t: Annotation)
    ensures TranslateType(t).Ok? <==> Supported(t)
    decreases t
  {
    match t
    case Subscript(Name(g), s) =>
      if g == "List" || g == "Optional" {
        TranslateSucceedsIffSupported(s);
      } else if g == "Tuple" && s.TupleNode? {
        forall i | 0 <= i < |s.elts|
          ensures TranslateType(s.elts[i]).Ok? <==> Supported(s.elts[i])
        {
          TranslateSucceedsIffSupported(s.elts[i]);
        }
        TupleShape(s);
      } else if g == "Dict" {
        DictShape(s);
      }
    case _ =>
  }

  /** The flag is raised exactly when a `Dict` appears anywhere in a
      successfully translated annotation. */
  lemma {:induction false} HashmapFlagIffDict(t: Annotation)
    requires TranslateType(t).Ok?
    ensures TranslateType(t).value.needsHashmap <==> MentionsDict(t)
    decreases t
  {
    match t
    case Subscript(Name(g), s) =>
      if g == "List" || g == "Optional" {
        HashmapFlagIffDict(s);
      } else if g == "Tuple" {
        var elts := s.elts;
        forall i | 0 <= i < |elts|
          ensures TranslateType(elts[i]).value.needsHashmap <==> MentionsDict(elts[i])
        {
          HashmapFlagIffDict(elts[i]);
        }
        TupleShape(s);
        assert MentionsDict(t) <==> MentionsDict(s);
      }
    case _ =>
  }

  /** What a successful translation looks like, case by case, without
      unfolding TranslateType again. */
  lemma {:induction false} TextShape(a: Annotation)
    requires TranslateType(a).Ok?
    ensures var text := TranslateType(a).value.text;
      && |text| >= 1
      && (a.Name? ==> IsPrimitiveName(a.id) && text == PrimitiveText(a.id))
      && (!a.Name? ==> a.Subscript? && a.value.Name?)
      && (IsGeneric(a, "List") ==>
            (&& TranslateType(a.slice).Ok?
             && text == "[" + TranslateType(a.slice).value.text + "]"))
      && (IsGeneric(a, "Optional") ==>
            (&& TranslateType(a.slice).Ok?
             && text == "Maybe (" + TranslateType(a.slice).value.text + ")"))
      && (IsGeneric(a, "Tuple") ==>
            (&& a.slice.TupleNode? && TranslateAll(a.slice.elts).Ok?
             && text == "(" + Join(" , ", Texts(TranslateAll(a.slice.elts).value)) + ")"))
      && (IsGeneric(a, "Dict") ==>
            (&& a.slice.TupleNode? && |a.slice.elts| == 2
             && a.slice.elts[0].Name? && IsPrimitiveName(a.slice.elts[0].id)
             && a.slice.elts[1].Name? && IsPrimitiveName(a.slice.elts[1].id)
             && a.slice == TupleNode([a.slice.elts[0], a.slice.elts[1]])
             && text == "[(" + PrimitiveText(a.slice.elts[0].id) + ", "
                        + PrimitiveText(a.slice.elts[1].id) + ")]"))
      && (a.Subscript? ==> a.value.id in ["List", "Optional", "Tuple", "Dict"])
  {
  }
}
